=== FILE: README.md ===
# editabletuple, modelled in Dafny

`editabletuple.py` provides two class factories.

- `editabletuple(classname, *fieldnames, defaults=None, validator=None)` makes
  a record class whose fields can be read and written by name, by position
  (negative positions count from the end) and by slice. It also supports
  `len`, `in`, iteration, `asdict`, a `repr`, and `==`/`<` with the other
  comparisons derived by `functools.total_ordering`.
- `editableobject(...)` makes the same kind of class with access by name
  only, plus an `astuple` property.

In both flavours every write goes through the optional validator, which
returns the value to store or raises. The constructor checks the argument
count and writes every field in declared order: the positional argument,
else the default, else None. It then writes the keyword arguments in the
caller's order. Fields can never be deleted.

The model follows the program's structure:

| module | file | what it holds |
|---|---|---|
| `Values` | values.dfy | field values (None, int, str), the exceptions as an `Error` datatype, Python's `<` on two values |
| `Ordering` | ordering.dfy | tuple `<`, and `==`, `!=`, `<`, `>`, `<=`, `>=` on records as `total_ordering` derives them |
| `FieldNames` | fieldnames.dfy | `str.split()` on the single-string form of the field names, and `' '.join` |
| `Slices` | slices.dfy | negative indices, `slice.indices(n)` and `range(start, stop, step)` |
| `Schemas` | schemas.dfy | the class a factory returns: name, fields, defaults, validator, flavour |
| `Writes` | writes.dfy | the write protocol as functions: one `setattr`, a sequence of writes that stops at the first failure, construction, slice assignment |
| `Records` | records.dfy | the instance as a `class Record` whose `values` the methods update in place |
| `Scenarios` | scenarios.dfy | the worked examples of the docstrings, replayed on the model |

The two flavours share one class, `Records.Record`. The flag
`Schema.indexable` is true for `editabletuple` and false for `editableobject`.
An operation that only one flavour defines returns, for the other flavour,
the `TypeError` or `AttributeError` Python raises there.

The validator is a parameter of the schema: a function from a field name and
a value to the value to store or an error.

Across different class names, `<` is False both ways and so is `==`. As a
result `total_ordering` makes `a > b` and `b > a` both True;
`Ordering.DifferentClassesUnordered` states this.

The code accepts an empty field list, and so does the model. The code also
accepts duplicate field names (two positions then share one slot); the model
covers only classes whose field names are distinct (`Schemas.WellFormed`).

## Model

| member | source | states |
|---|---|---|
| Values.StrLess | editabletuple.py:313 | Python `<` on str: a proper prefix is less, and a string is never less than one of its prefixes |
| Values.StrLessFirstDifference | editabletuple.py:313 | otherwise the first differing code point decides: `a < b` exactly when `a`'s code point there is the smaller |
| Values.ValueLess | editabletuple.py:313 | Python `<` on two field values: defined exactly for int/int and str/str, raising TypeError otherwise; integer `<` on ints, `StrLess` on strings |
| Values.ValueLessIrreflexive | editabletuple.py:313 | no value is less than itself |
| Values.ValueLessAsymmetric | editabletuple.py:313 | two values are never less than each other both ways |
| Values.ValueLessTransitive | editabletuple.py:313 | `<` on values is transitive |
| Values.ValueLessTotal | editabletuple.py:313 | two different orderable values are ordered one way or the other |
| Ordering.Mismatch | editabletuple.py:313 | the first position where two value tuples differ; all earlier positions are equal |
| Ordering.TupleLess | editabletuple.py:313 | `tuple(a) < tuple(b)`, lexicographic: a proper prefix is less, a tuple is never less than one of its prefixes (itself included), and otherwise `<` on the first differing pair decides; it raises only on an unorderable pair |
| Ordering.TupleLessAsymmetric | editabletuple.py:313 | tuple `<` never holds both ways |
| Ordering.TupleLessTrichotomy | editabletuple.py:313 | for comparable tuples exactly one of `a < b`, `a == b`, `b < a` holds |
| Ordering.TupleLessTransitive | editabletuple.py:313 | tuple `<` is transitive |
| Ordering.Eq | editabletuple.py:305-308 | `==` is True exactly for records with the same class name, flavour and values; it is False for different class names and raises for the same name across flavours |
| Ordering.Lt | editabletuple.py:310-313 | `<` is False for different class names and raises across flavours; within a class it is tuple `<` on the values, so it is lexicographic (`TupleLess`), irreflexive, asymmetric and transitive (`LtIrreflexive`, `LtAsymmetric`, `LtTransitive`) |
| Ordering.Ne | editabletuple.py:305-308 | `!=` is the negation of `==`, and raises exactly when `==` does; so it is False exactly for records of the same class, flavour and values (`Eq`) |
| Ordering.Gt | editabletuple.py:325 | the derived `>` raises exactly when `<` does, is True across class names, and holds only for records that are neither `<` nor `==` |
| Ordering.Le | editabletuple.py:325 | the derived `<=` raises exactly when `<` does, is False across class names, and holds for equal records; within a class it is `<` or `==` and `not b < a` (`DerivedFromLtAndEq`) |
| Ordering.Ge | editabletuple.py:325 | the derived `>=` raises exactly when `<` does, is True across class names, and holds for equal records; within a class it is `not a < b`, i.e. `>` or `==` (`DerivedFromLtAndEq`) |
| Ordering.LtIrreflexive | editabletuple.py:310-313 | no record is less than itself |
| Ordering.LtAsymmetric | editabletuple.py:310-313 | `a < b` and `b < a` never both hold |
| Ordering.EqExcludesLt | editabletuple.py:305-313 | equal records are not less than one another either way |
| Ordering.LtTransitive | editabletuple.py:310-313 | `<` on records is transitive |
| Ordering.DerivedFromLtAndEq | editabletuple.py:325 | within one class, for comparable values: `a <= b` iff `a < b` or `a == b`, iff not `b < a`; `a >= b` iff `b < a` or `a == b`, iff not `a < b` |
| Ordering.DerivedOperatorsConsistent | editabletuple.py:325 | within one class the derived `>` is the converse of `<`, and `>=` the converse of `<=` |
| Ordering.DifferentClassesUnordered | editabletuple.py:305-313 | across class names `==` and `<` are False both ways, so `>=` and even `>` hold both ways |
| FieldNames.Split | editabletuple.py:315-316 | `str.split()`: every word produced is non-empty and free of whitespace |
| FieldNames.SplitPaddedJoin | editabletuple.py:315-316 | words break at every run of whitespace, each gap of any length and kind and possibly different from the others, and leading or trailing whitespace gives no word: `(pre + w0 + gap0 + w1 + ... + post).split() == [w0, w1, ...]` |
| FieldNames.SplitJoin | editabletuple.py:315-316 | splitting undoes joining with single spaces: `' '.join(ws).split() == ws` |
| FieldNames.SplitKeepsCharacters | editabletuple.py:315-316 | the words, concatenated, are exactly the non-whitespace characters of the string |
| Slices.NormalizeIndex | editabletuple.py:270 | `fields[i]`: succeeds exactly for `-n <= i < n`, giving the position congruent to `i` modulo `n`; otherwise IndexError |
| Slices.Clamp | editabletuple.py:269 | one end of a slice as `slice.indices` clamps it: an omitted end takes its default; a negative end counts from the end and is raised to the lower bound if still below it; a non-negative end is kept, or cut to the upper bound |
| Slices.Indices | editabletuple.py:269 | `slice.indices(n)`: ValueError exactly for step 0, the step defaults to 1, and start/stop lie within `0..n` (positive step) or `-1..n-1` (negative step), each end clamped by `Clamp`'s rule |
| Slices.Range | editabletuple.py:269 | `range(start, stop, step)`: the arithmetic progression from `start` that stays before `stop` and is maximal |
| Slices.RangeMonotone | editabletuple.py:269 | a range is strictly increasing for a positive step and strictly decreasing for a negative one |
| Slices.SliceIndices | editabletuple.py:268-269 | the positions a slice selects all lie in `0 .. n-1`; step 0 raises |
| Slices.SliceIndicesDistinct | editabletuple.py:275 | a slice never selects a position twice |
| Slices.FullSlice | editabletuple.py:268-269 | `[:]` selects every position in order |
| Slices.ReversedSlice | editabletuple.py:268-269 | `[::-1]` selects every position from the last to the first |
| Slices.PlainSlice | editabletuple.py:268-269 | `[a:b]` with `0 <= a <= b <= n` selects exactly `a .. b-1` |
| Slices.TailSlice | editabletuple.py:268-269 | `[a:]` with `-n <= a < 0` selects the last `-a` positions, `n+a .. n-1` |
| Slices.OverlongSlice | editabletuple.py:268-269 | `[a:b]` with a stop beyond the end selects `a .. n-1` |
| Slices.OverlongReversedSlice | editabletuple.py:268-269 | `[a::-1]` with a start at or beyond the end begins at the last position and selects every position backwards |
| Schemas.FieldList | editabletuple.py:315-316 | several names are kept as given; a single string is split into whitespace-free words that keep all of its non-whitespace characters |
| Schemas.EditableTuple | editabletuple.py:317-325 | the class keeps the given name, defaults and validator, is indexable, and has the field list the single-string rule gives |
| Schemas.EditableObject | editabletuple.py:580-588 | the same for the name-only flavour |
| Writes.Assign | editabletuple.py:283-289 | `setattr`: the validator runs first and its error is raised unchanged; then a name that is no field raises AttributeError; otherwise exactly that field takes the validator's result |
| Writes.AssignOwnValue | editabletuple.py:283-289 | writing a field's own value back, through a validator that returns that value unchanged, leaves every field as it was |
| Writes.AssignTwice | editabletuple.py:283-289 | a write that succeeded, repeated with the same name and value, changes nothing more |
| Writes.Apply | editabletuple.py:243-253 | the writes done in order, the first failure stopping them; when none fails, no write had an error |
| Writes.Step | editabletuple.py:249-253 | one constructor write: an unknown keyword is refused before the validator; a failing write changes nothing; a successful one is `setattr` |
| Writes.ApplyUntouched | editabletuple.py:243-253 | a field that no write names keeps its value, even when the writes stop early |
| Writes.ApplyLastWrite | editabletuple.py:249-253 | after completed writes, a field holds the validator's result for the last write naming it |
| Writes.ApplyCompletes | editabletuple.py:243-253 | a sequence of writes completes exactly when none of its writes raises |
| Writes.ApplyStopsAtFirstError | editabletuple.py:243-253 | the first write that raises stops the sequence with its error, keeping the effect of the writes before it |
| Writes.ApplyKeepsFailure | editabletuple.py:243-253 | once a prefix of the writes has failed, the later writes change nothing |
| Writes.PositionalWrites | editabletuple.py:243-247 | the first pass offers every field, in declared order, its positional argument, else its default, else None; what the field then holds is `BuildDefaulting` |
| Writes.ArityError | editabletuple.py:240-242 | the too-many-arguments TypeError, counting positional and keyword arguments; whenever it is raised it reports more arguments than fields |
| Writes.ArityErrorAsWritten | editabletuple.py:240-242 | the message as the code builds it, reporting only the positional count |
| Writes.ArityMessageUndercounts | editabletuple.py:240-242 | a refused call whose message claims no more arguments than the class accepts |
| Writes.Build | editabletuple.py:238-253 | `Class(*args, **kwargs)`: too many arguments raise the arity TypeError before any write; a success holds one value per field |
| Writes.BuildDefaulting | editabletuple.py:243-247 | a field no keyword names holds the validator's result for its positional argument, else its default, else None |
| Writes.BuildOverride | editabletuple.py:248-253 | a keyword overrides the first pass: the field holds the validator's result for the last keyword naming it |
| Writes.BuildSucceeds | editabletuple.py:238-253 | construction succeeds exactly when the count fits, every first-pass value is accepted, and every keyword names a field whose value is accepted |
| Writes.BuildKeywordError | editabletuple.py:248-253 | after a complete first pass, the first bad keyword (unknown name or refused value) is the error raised |
| Writes.BuildUnknownKeyword | editabletuple.py:249-252 | a keyword naming no field raises the unexpected-keyword TypeError without reaching the validator |
| Writes.BuildPositionalErrorFirst | editabletuple.py:243-247 | a value refused in the first pass is the error raised, whatever the keywords |
| Writes.BuildRoundTrip | editabletuple.py:238-253 | `Class(*values)` rebuilds exactly `values` when the validator accepts each as it is |
| Writes.SliceWrites | editabletuple.py:275 | `zip(positions, values)` as writes: as many as the shorter of the two, the k-th naming the field at the k-th position with the k-th value; their effect is `SliceAssignWrites` and `SliceAssignFrame` |
| Writes.SliceAssignWrites | editabletuple.py:274-276 | after a completed slice assignment the k-th selected field holds the validator's result for the k-th value |
| Writes.SliceAssignFrame | editabletuple.py:274-276 | slice assignment leaves every field it does not write unchanged, even when a write fails |
| Records.Record.Construct | editabletuple.py:238-253 | `Class(*args, **kwargs)` yields a fresh record holding exactly what `Build` computes, or raises `Build`'s error |
| Records.Record.Init | editabletuple.py:238-253 | `__init__` checks the count, then runs the two passes, and ends in the state or error `Build` specifies |
| Records.Record.WriteAll | editabletuple.py:243-253 | the loop of writes leaves the record and the error exactly as `Apply` specifies |
| Records.Record.SetAttr | editabletuple.py:283-289 | `record.name = value` updates the record exactly as `Assign` says, and leaves it unchanged on error |
| Records.Record.GetAttr | editabletuple.py:270 | `record.name` for a field name reads the value of that field; any other name raises AttributeError |
| Records.Record.GetItem | editabletuple.py:265-270 | `record[i]` succeeds exactly for `-n <= i < n` and reads the same value as the field at that (normalised) position by name; the name-only flavour is not subscriptable |
| Records.Record.GetSlice | editabletuple.py:265-269 | `record[sl]` is a list as long as the selected positions, each element what `record[position]` reads; step 0 raises |
| Records.Record.SetItem | editabletuple.py:272-278 | `record[i] = v` checks the index first, then stores the validator's result at that position only; on error nothing changes |
| Records.Record.SetSlice | editabletuple.py:272-276 | `record[sl] = vs` performs exactly the writes of `zip(range(*sl.indices(n)), vs)` in order, stopping at the first failure |
| Records.Record.DelAttr | editabletuple.py:280-281 | `del record.name` always raises AttributeError('__delattr__') |
| Records.Record.DelItem | editabletuple.py:188-195 | `del record[i]` always raises: AttributeError('__delitem__') for the indexable flavour, TypeError for the other |
| Records.Record.Len | editabletuple.py:291-292 | `len(record)` is the number of fields, which is the length of `list(record)` |
| Records.Record.Contains | editabletuple.py:294-298 | `x in record` is True exactly when some field's value equals `x` |
| Records.Record.Iter | editabletuple.py:300-303 | iteration yields one value per field, in declared order, each what reading that field by name gives |
| Records.Record.AsTuple | editabletuple.py:552-553 | `record.astuple` holds one value per field in declared order, each what reading that field by name gives |
| Records.Record.AsDict | editabletuple.py:255-256 | `record.asdict` pairs every field name, in declared order, with what reading that name gives |
| Records.Record.Repr | editabletuple.py:258-263 | `repr(record)` is `Name(f1=v1, f2=v2, ...)` in declared field order |
| Records.IndexAgreesWithName | editabletuple.py:265-270 | `record[i]` and `record.<i-th field>` read the same value, and `record[i - n]` is `record[i]` |
| Records.FullSliceIsIter | editabletuple.py:265-269 | `record[:]` equals `list(record)` |
| Records.SliceAssignment | editabletuple.py:274-276 | after `record[sl] = vs`, selected fields hold the validated new values and all others are unchanged |
| Records.CopyEqualsOriginal | editabletuple.py:173-175 | `Point(*p) == p` whenever the validator accepts the stored values as they are |
| Scenarios.SplitRgbNames | editabletuple.py:76 | `'red green blue'` gives the fields `red`, `green`, `blue` |
| Scenarios.RgbDefaults | editabletuple.py:76-79 | `Rgb()` is `Rgb(red=0, green=0, blue=0)` |
| Scenarios.RgbOverride | editabletuple.py:80-82 | `Rgb(blue=128)` is `Rgb(red=0, green=0, blue=128)` |
| Scenarios.RgbPositional | editabletuple.py:83-85 | `Rgb(238, 130, 238)` fills the fields in order |
| Scenarios.RgbaColorAccepted | editabletuple.py:89-95 | the example validator keeps a colour value in 0..255 |
| Scenarios.RgbaAlphaClamped | editabletuple.py:89-95 | the example validator turns an out-of-range alpha into the opaque value |
| Scenarios.RgbaColorRefused | editabletuple.py:89-95 | the example validator raises for a colour value outside 0..255 |
| Scenarios.RgbaAlphaCorrected | editabletuple.py:105-107 | an alpha that is too big is stored as the opaque value |
| Scenarios.RgbaGreen | editabletuple.py:109-111 | `Rgba(green=99)` keeps the other defaults |
| Scenarios.RgbaKeywordRefused | editabletuple.py:133-136 | `Rgba(green=99, blue=256)` raises the validator's error |
| Scenarios.RgbaPositionalRefused | editabletuple.py:137-140 | `Rgba(100, 200, 300)` raises the validator's error |
| Scenarios.PointConstructionErrors | editabletuple.py:240-252 | `Point(1, 2, 3)` and `Point(z=1)` raise the two constructor TypeErrors |
| Scenarios.PointMissingCoordinate | editabletuple.py:243-247 | without defaults a field no argument names is None |
| Scenarios.PointOrdering | editabletuple.py:164-172 | `Point(3, 4) < Point(3, 5)`, `Point(3, 5) > Point(3, 4)`, they are not equal, and `Point(3, 4) <= Point(3, 5)` while `>=` is False |
| Scenarios.ColorLast | editabletuple.py:117-118 | `color[-1]` is the fourth field |
| Scenarios.ColorPrefix | editabletuple.py:144-145 | `color[:3]` selects the first three fields |
| Scenarios.ColorMiddle | editabletuple.py:150 | `color[1:3]` selects the second and third fields |
| Scenarios.ColorSliceAssignment | editabletuple.py:150-152 | `color[1:3] = (20, 25)` replaces green and blue only |
| Scenarios.NewColor | editabletuple.py:109-112 | `Rgba(green=99)` as a new record holds red 0, green 99, blue 0 and the opaque alpha |
| Scenarios.ColorPositionalUpdates | editabletuple.py:115-118 | `color[2] = 240` and `color[-1] = ...` update those fields |
| Scenarios.ColorRefusals | editabletuple.py:121-132 | refused writes by position and by name leave the record unchanged |
| Scenarios.ColorSession | editabletuple.py:109-132 | `color = Rgba(green=99)`, then `color.red = 128`, `color[2] = 240`, `color[-1] = 0.5` and three refused writes, leave `Rgba(red=128, green=99, blue=240, alpha=0.5)` |
| Scenarios.PointSession | editabletuple.py:164-205 | for `p = Point(3, 4)`: `5 in p` is False and `4 in p` True; `del p.y`, `del p[0]`, `p.z = 99` and `p[3] = 5` raise their errors, and `p` stays `Point(x=3, y=4)` |

## Left out

- Schemas.EditableTuple: does not model the errors `type()` raises while creating the class: TypeError for a field name that is not an identifier (`'x-y'`), ValueError for a field name that clashes with a class attribute (`asdict`, `astuple`, `_defaults`, `_validator`, `__len__`, ...). For such names it returns a schema.
- Schemas.EditableObject: does not model the same `type()` errors for the name-only flavour; it too returns a schema for such names.
- Floating-point values, booleans and all other Python types: field values are None, int or str. In the examples an alpha of 0.0 to 1.0 becomes an integer 0 to 100, with 100 as opaque.
- The validator is a pure function. Side effects it may have, and a validator that changes behaviour between calls, are not modelled.
- The creation of the class with `type()`, `__slots__` and `functools.total_ordering`. The model has a fixed schema and states the derived operators directly. Classes with duplicate field names are not covered.
- Comparison with a non-record object whose class has the same name as the record's: the code then goes on to `tuple(other)` or `other.astuple`, which the model does not follow. An object of any other class compares as the model's different-class rule says (`==` and `<` False, so `>` and `>=` True).
- Subclassing a generated class (the docstring's fifth example) and the module's doctest runner.
- Records.Record.Repr: takes the `repr()` of a value as a parameter `show`. It states the shape of the string, not Python's formatting of each value.
- Error messages are structured `Error` values, not formatted strings. The validator's message in the examples omits the offending value.
- Records.Record.GetAttr: reads fields only. The class's other attributes (`asdict`, `astuple`, `_defaults`, `_validator`, the methods) are modelled by their own members or not at all, and `GetAttr` raises AttributeError for them where Python returns them.
- Writes.Build: reports the corrected count `len(args) + len(kwargs)` in the too-many-arguments TypeError (the Findings row); the code reports `len(args)`. The decision to raise, and when, is as in the code.
- Records.Record.Init: reports the corrected argument count in the too-many-arguments TypeError, as `Writes.Build` does.
- Records.Record.Construct: reports the corrected argument count in the too-many-arguments TypeError, as `Writes.Build` does.
- Indices are Python ints. Other index types (bool, objects with `__index__`) are not modelled.
- The version string and setup.py: packaging metadata, not behaviour.

## Findings

| source | as written | input that shows it | evidently intended | confidence | as-written member | corrected member |
|---|---|---|---|---|---|---|
| editabletuple.py:240-242 | the too-many-arguments TypeError reports `got {len(args)}`, ignoring the keyword arguments that were counted in the check | `Rgb(1, 2, blue=3, red=4)` on a three-field class: refused, but the message says "accepts up to 3 args; got 2" | report `len(args) + len(kwargs)`, the count that was checked | not executed | Writes.ArityErrorAsWritten, Writes.ArityMessageUndercounts | Writes.ArityError |

=== FILE: fieldnames.dfy ===
/** Field names given as one string: `'x y z'` is split on runs of
    whitespace the way Python's `str.split()` without arguments does. */
module FieldNames {

  /** The characters Python's `str.split()` treats as whitespace. */
  predicate IsSpace(c: char)
  {
    ('\t' <= c <= '\r') || ('\U{1C}' <= c <= ' ') || c == '\U{85}' || c == '\U{A0}'
    || c == '\U{1680}' || ('\U{2000}' <= c <= '\U{200A}') || c == '\U{2028}' || c == '\U{2029}'
    || c == '\U{202F}' || c == '\U{205F}' || c == '\U{3000}'
  }

  /** A possible field name produced by splitting: not empty, no whitespace. */
  predicate IsWord(w: string)
  {
    |w| > 0 && forall i :: 0 <= i < |w| ==> !IsSpace(w[i])
  }

  /** The longest prefix of `s` without whitespace. */
  function Word(s: string): (w: string)
    ensures |w| <= |s| && w == s[..|w|]
    ensures forall i :: 0 <= i < |w| ==> !IsSpace(w[i])
    ensures |w| == |s| || IsSpace(s[|w|])
  {
    if s == [] || IsSpace(s[0]) then [] else [s[0]] + Word(s[1..])
  }

  /** `s.split()`: the maximal runs of non-whitespace characters, in order. */
  function Split(s: string): (words: seq<string>)
    ensures forall k :: 0 <= k < |words| ==> IsWord(words[k])
    decreases |s|
  {
    if s == [] then []
    else if IsSpace(s[0]) then Split(s[1..])
    else
      var w := Word(s);
      [w] + Split(s[|w|..])
  }

  /** `sep.join(words)`. */
  function Join(words: seq<string>, sep: string): string
  {
    if |words| == 0 then ""
    else if |words| == 1 then words[0]
    else words[0] + sep + Join(words[1..], sep)
  }

  lemma WordOfWord(w: string, rest: string)
    requires IsWord(w)
    requires rest == [] || IsSpace(rest[0])
    ensures Word(w + rest) == w
    decreases |w|
  {
    if |w| > 1 {
      assert (w + rest)[1..] == w[1..] + rest;
      WordOfWord(w[1..], rest);
    } else {
      assert (w + rest)[1..] == rest;
    }
  }

  /** Only whitespace. */
  predicate AllSpace(s: string)
  {
    forall i :: 0 <= i < |s| ==> IsSpace(s[i])
  }

  /** Leading whitespace never starts a word. */
  lemma {:induction false} SplitSkipsSpace(ws: string, s: string)
    requires AllSpace(ws)
    ensures Split(ws + s) == Split(s)
    decreases |ws|
  {
    if ws != [] {
      assert (ws + s)[0] == ws[0];
      assert (ws + s)[1..] == ws[1..] + s;
      SplitSkipsSpace(ws[1..], s);
    } else {
      assert ws + s == s;
    }
  }

  /** A word followed by whitespace (or nothing) is split off whole. */
  lemma SplitWord(w: string, rest: string)
    requires IsWord(w)
    requires rest == [] || IsSpace(rest[0])
    ensures Split(w + rest) == [w] + Split(rest)
  {
    WordOfWord(w, rest);
    assert (w + rest)[0] == w[0];
    assert (w + rest)[|w|..] == rest;
  }

  /** Non-empty runs of whitespace, one for each gap between two words. */
  predicate Gaps(gaps: seq<string>)
  {
    forall i :: 0 <= i < |gaps| ==> |gaps[i]| > 0 && AllSpace(gaps[i])
  }

  /** The words with `gaps[i]` between `words[i]` and `words[i + 1]`. */
  function Interleave(words: seq<string>, gaps: seq<string>): string
    requires |gaps| == if |words| == 0 then 0 else |words| - 1
    decreases |words|
  {
    if |words| == 0 then ""
    else if |words| == 1 then words[0]
    else words[0] + gaps[0] + Interleave(words[1..], gaps[1..])
  }

  lemma {:induction false} SplitInterleaveTail(words: seq<string>, gaps: seq<string>, post: string)
    requires forall k :: 0 <= k < |words| ==> IsWord(words[k])
    requires |gaps| == (if |words| == 0 then 0 else |words| - 1) && Gaps(gaps) && AllSpace(post)
    ensures Split(Interleave(words, gaps) + post) == words
    decreases |words|
  {
    if |words| == 0 {
      SplitSkipsSpace(post, []);
      assert post + [] == post;
      assert Interleave(words, gaps) + post == post;
    } else if |words| == 1 {
      assert Interleave(words, gaps) == words[0];
      SplitWord(words[0], post);
      SplitSkipsSpace(post, []);
      assert post + [] == post;
    } else {
      var tail := Interleave(words[1..], gaps[1..]);
      assert Interleave(words, gaps) == words[0] + gaps[0] + tail;
      SplitGap(words[0], gaps[0], tail, post);
      SplitInterleaveTail(words[1..], gaps[1..], post);
      assert words == [words[0]] + words[1..];
    }
  }

  /** A word, then a gap: the word is split off and the gap skipped. */
  lemma SplitGap(w: string, gap: string, tail: string, post: string)
    requires IsWord(w) && |gap| > 0 && AllSpace(gap)
    ensures Split(w + gap + tail + post) == [w] + Split(tail + post)
  {
    assert w + gap + tail + post == w + (gap + (tail + post));
    assert IsSpace(gap[0]);
    SplitWord(w, gap + (tail + post));
    SplitSkipsSpace(gap, tail + post);
  }

  /** Words break at every run of whitespace, however long and whatever its
      characters (each gap may differ from the others), and whitespace at
      either end yields no word: for names free of whitespace,
      `(pre + w0 + gap0 + w1 + gap1 + ... + post).split() == [w0, w1, ...]`. */
  lemma SplitPaddedJoin(pre: string, words: seq<string>, gaps: seq<string>, post: string)
    requires forall k :: 0 <= k < |words| ==> IsWord(words[k])
    requires |gaps| == (if |words| == 0 then 0 else |words| - 1) && Gaps(gaps)
    requires AllSpace(pre) && AllSpace(post)
    ensures Split(pre + Interleave(words, gaps) + post) == words
  {
    var joined := Interleave(words, gaps);
    SplitInterleaveTail(words, gaps, post);
    SplitSkipsSpace(pre, joined + post);
    Regroup(pre, joined, post);
  }

  lemma Regroup(a: string, b: string, c: string)
    ensures a + b + c == a + (b + c)
  {
  }

  /** `sep.join(words)` puts the same gap between every two words. */
  lemma {:induction false} JoinIsInterleave(words: seq<string>, sep: string)
    requires |words| > 0
    ensures Join(words, sep) == Interleave(words, seq(|words| - 1, _ => sep))
    decreases |words|
  {
    if |words| > 1 {
      var gaps := seq(|words| - 1, _ => sep);
      JoinIsInterleave(words[1..], sep);
      assert gaps[1..] == seq(|words[1..]| - 1, _ => sep);
    }
  }

  /** Splitting undoes joining with single spaces: `' '.join(ws).split() == ws`
      for any list of names that contain no whitespace. */
  lemma SplitJoin(words: seq<string>)
    requires forall k :: 0 <= k < |words| ==> IsWord(words[k])
    ensures Split(Join(words, " ")) == words
  {
    if |words| > 0 {
      var none: string := [];
      var gaps := seq(|words| - 1, _ => " ");
      assert IsSpace(' ');
      assert Gaps(gaps);
      JoinIsInterleave(words, " ");
      SplitInterleaveTail(words, gaps, none);
      assert Join(words, " ") + none == Join(words, " ");
    }
  }

  /** The non-whitespace characters of `s`, in order. */
  function Squeeze(s: string): string
  {
    if s == [] then [] else (if IsSpace(s[0]) then [] else [s[0]]) + Squeeze(s[1..])
  }

  function Concat(words: seq<string>): string
  {
    if words == [] then [] else words[0] + Concat(words[1..])
  }

  lemma SqueezeAppend(a: string, b: string)
    ensures Squeeze(a + b) == Squeeze(a) + Squeeze(b)
  {
    if a != [] {
      assert (a + b)[1..] == a[1..] + b;
      SqueezeAppend(a[1..], b);
    } else {
      assert a + b == b;
    }
  }

  lemma SqueezeWord(w: string)
    requires forall i :: 0 <= i < |w| ==> !IsSpace(w[i])
    ensures Squeeze(w) == w
  {
    if w != [] {
      SqueezeWord(w[1..]);
    }
  }

  /** Splitting loses nothing but whitespace: the words, put together, are
      exactly the non-whitespace characters of `s`. */
  lemma {:induction false} SplitKeepsCharacters(s: string)
    ensures Concat(Split(s)) == Squeeze(s)
    decreases |s|
  {
    if s == [] {
    } else if IsSpace(s[0]) {
      SplitKeepsCharacters(s[1..]);
    } else {
      var w := Word(s);
      assert s == w + s[|w|..];
      SqueezeAppend(w, s[|w|..]);
      SqueezeWord(w);
      SplitKeepsCharacters(s[|w|..]);
      assert Split(s)[1..] == Split(s[|w|..]);
    }
  }
}

=== FILE: ordering.dfy ===
/** Python's tuple comparison, and the comparison operators of a record:
    `==` and `<` guarded by the class name, `!=` from `==`, and `>`, `<=`,
    `>=` derived from `<` and `==` the way functools.total_ordering does. */
module Ordering {
  import opened Values

  /** The length of the longest common prefix of two tuples. */
  function Mismatch(a: seq<Value>, b: seq<Value>): (k: nat)
    ensures k <= |a| && k <= |b|
    ensures forall j :: 0 <= j < k ==> a[j] == b[j]
    ensures k < |a| && k < |b| ==> a[k] != b[k]
    decreases |a|
  {
    if |a| == 0 || |b| == 0 || a[0] != b[0] then 0 else 1 + Mismatch(a[1..], b[1..])
  }

  lemma MismatchSymmetric(a: seq<Value>, b: seq<Value>)
    ensures Mismatch(a, b) == Mismatch(b, a)
  {
    var k, k' := Mismatch(a, b), Mismatch(b, a);
    if k < k' {
      assert false;
    } else if k' < k {
      assert false;
    }
  }

  /** Python's `a < b` on tuples: the first position where the tuples differ
      decides, by `<` on the two values there (which may raise); when one
      tuple is a prefix of the other, the shorter one is smaller. */
  function TupleLess(a: seq<Value>, b: seq<Value>): (r: Result<bool>)
    ensures a == b ==> r == Ok(false)
    ensures |a| < |b| && a == b[..|a|] ==> r == Ok(true)
    ensures |b| <= |a| && b == a[..|b|] ==> r == Ok(false)
    ensures forall k :: 0 <= k < |a| && k < |b| && a[..k] == b[..k] && a[k] != b[k] ==> r == ValueLess(a[k], b[k])
    ensures r.Err? ==> r.error == Unorderable
  {
    var k := Mismatch(a, b);
    if k == |a| || k == |b| then Ok(|a| < |b|) else ValueLess(a[k], b[k])
  }

  /** The tuple order is asymmetric: never both `a < b` and `b < a`. */
  lemma TupleLessAsymmetric(a: seq<Value>, b: seq<Value>)
    ensures !(TupleLess(a, b) == Ok(true) && TupleLess(b, a) == Ok(true))
  {
    MismatchSymmetric(a, b);
    var k := Mismatch(a, b);
    if k < |a| && k < |b| {
      ValueLessAsymmetric(a[k], b[k]);
    }
  }

  /** Comparing `a` with `b` raises exactly when comparing `b` with `a` does,
      and for tuples that can be compared exactly one of `a < b`, `a == b`,
      `b < a` holds. */
  lemma TupleLessTrichotomy(a: seq<Value>, b: seq<Value>)
    ensures TupleLess(a, b).Ok? <==> TupleLess(b, a).Ok?
    ensures TupleLess(a, b).Ok? && a != b ==>
              TupleLess(a, b) == Ok(true) || TupleLess(b, a) == Ok(true)
    ensures !(TupleLess(a, b) == Ok(true) && TupleLess(b, a) == Ok(true))
    ensures a == b ==> TupleLess(a, b) == Ok(false)
  {
    TupleLessAsymmetric(a, b);
    MismatchSymmetric(a, b);
    var k := Mismatch(a, b);
    if k < |a| && k < |b| {
      if Orderable(a[k], b[k]) {
        ValueLessTotal(a[k], b[k]);
      }
    } else if k == |a| && k == |b| {
      assert a == b;
    }
  }

  lemma {:induction false} TupleLessTransitive(a: seq<Value>, b: seq<Value>, c: seq<Value>)
    requires TupleLess(a, b) == Ok(true) && TupleLess(b, c) == Ok(true)
    ensures TupleLess(a, c) == Ok(true)
  {
    var i, j, m := Mismatch(a, b), Mismatch(b, c), Mismatch(a, c);
    if i < j {
      // a and c first differ where a and b do; there b agrees with c
      assert forall t :: 0 <= t < i ==> a[t] == c[t];
      if i < |a| {
        assert a[i] != c[i];
        assert m == i;
      } else {
        assert m == i;
      }
    } else if j < i {
      // a and c first differ where b and c do; there a agrees with b
      assert forall t :: 0 <= t < j ==> a[t] == c[t];
      assert j < |c|;
      assert a[j] == b[j];
      assert m == j;
    } else {
      assert forall t :: 0 <= t < i ==> a[t] == c[t];
      if i < |a| {
        ValueLessTransitive(a[i], b[i], c[i]);
        ValueLessIrreflexive(a[i]);
        assert a[i] != c[i];
        assert m == i;
      } else {
        assert m == i;
      }
    }
  }

  /** What the comparison operators see of a record: its class name, its
      flavour (true: indexable, false: name-only) and its field values. */
  datatype View = View(classname: string, indexable: bool, values: seq<Value>)

  /** The error `tuple(b)` (indexable flavour) or `b.astuple` (name-only
      flavour) raises when `b` is a record of the other flavour. */
  function FlavourClash(a: View, b: View): Error
  {
    if a.indexable then NotIterable(b.classname) else NoAttribute(b.classname, "astuple")
  }

  /** `a == b` (`__eq__`). */
  function Eq(a: View, b: View): (r: Result<bool>)
    ensures r == Ok(true) <==> a == b
    ensures a.classname != b.classname ==> r == Ok(false)
    ensures r.Err? <==> a.classname == b.classname && a.indexable != b.indexable
  {
    if a.classname != b.classname then Ok(false)
    else if a.indexable != b.indexable then Err(FlavourClash(a, b))
    else Ok(a.values == b.values)
  }

  /** `a < b` (`__lt__`). */
  function Lt(a: View, b: View): (r: Result<bool>)
    ensures a.classname != b.classname ==> r == Ok(false)
    ensures a.classname == b.classname && a.indexable == b.indexable ==> r == TupleLess(a.values, b.values)
    ensures a.classname == b.classname && a.indexable != b.indexable ==> r == Err(FlavourClash(a, b))
  {
    if a.classname != b.classname then Ok(false)
    else if a.indexable != b.indexable then Err(FlavourClash(a, b))
    else TupleLess(a.values, b.values)
  }

  /** `a != b`: Python's default `__ne__`, the negation of `__eq__`. */
  function Ne(a: View, b: View): (r: Result<bool>)
    ensures r.Ok? <==> Eq(a, b).Ok?
    ensures r.Ok? ==> r.value == !Eq(a, b).value
  {
    match Eq(a, b)
    case Ok(e) => Ok(!e)
    case Err(x) => Err(x)
  }

  /** `a > b` as total_ordering derives it: `not a < b and a != b`. */
  function Gt(a: View, b: View): (r: Result<bool>)
    ensures r.Err? <==> Lt(a, b).Err?
    ensures a.classname != b.classname ==> r == Ok(true)
    ensures r == Ok(true) ==> Lt(a, b) == Ok(false) && Eq(a, b) == Ok(false)
  {
    match Lt(a, b)
    case Err(x) => Err(x)
    case Ok(true) => Ok(false)
    case Ok(false) => Ne(a, b)
  }

  /** `a <= b` as total_ordering derives it: `a < b or a == b`. */
  function Le(a: View, b: View): (r: Result<bool>)
    ensures r.Err? <==> Lt(a, b).Err?
    ensures a.classname != b.classname ==> r == Ok(false)
    ensures Eq(a, b) == Ok(true) ==> r == Ok(true)
  {
    match Lt(a, b)
    case Err(x) => Err(x)
    case Ok(true) => Ok(true)
    case Ok(false) => Eq(a, b)
  }

  /** `a >= b` as total_ordering derives it: `not a < b`. */
  function Ge(a: View, b: View): (r: Result<bool>)
    ensures r.Err? <==> Lt(a, b).Err?
    ensures a.classname != b.classname ==> r == Ok(true)
    ensures Eq(a, b) == Ok(true) ==> r == Ok(true)
  {
    match Lt(a, b)
    case Err(x) => Err(x)
    case Ok(l) => Ok(!l)
  }

  /** `<` is irreflexive: a record is never less than itself. */
  lemma LtIrreflexive(a: View)
    ensures Lt(a, a) == Ok(false)
  {
  }

  /** `<` is asymmetric: never both `a < b` and `b < a`. */
  lemma LtAsymmetric(a: View, b: View)
    ensures !(Lt(a, b) == Ok(true) && Lt(b, a) == Ok(true))
  {
    if a.classname == b.classname && a.indexable == b.indexable {
      TupleLessAsymmetric(a.values, b.values);
    }
  }

  /** Equal records are not less than one another, either way. */
  lemma EqExcludesLt(a: View, b: View)
    requires Eq(a, b) == Ok(true)
    ensures Lt(a, b) == Ok(false) && Lt(b, a) == Ok(false)
  {
  }

  /** `<` is transitive. */
  lemma LtTransitive(a: View, b: View, c: View)
    requires Lt(a, b) == Ok(true) && Lt(b, c) == Ok(true)
    ensures Lt(a, c) == Ok(true)
  {
    TupleLessTransitive(a.values, b.values, c.values);
  }

  /** For records of one class and flavour whose values can be compared,
      the derived operators are the converses they should be:
      `a > b` is `b < a` and `a >= b` is `b <= a`. */
  lemma DerivedOperatorsConsistent(a: View, b: View)
    requires a.classname == b.classname && a.indexable == b.indexable
    requires Lt(a, b).Ok?
    ensures Gt(a, b) == Lt(b, a)
    ensures Ge(a, b) == Le(b, a)
  {
    TupleLessTrichotomy(a.values, b.values);
    TupleLessAsymmetric(a.values, b.values);
  }

  /** Within one class and flavour, for values that can be compared, the
      derived `<=` is `<` or `==` and is `not b < a`, and `>=` is `>` or `==`:
      the operators total_ordering derives from `<` and `==`. */
  lemma DerivedFromLtAndEq(a: View, b: View)
    requires a.classname == b.classname && a.indexable == b.indexable
    requires Lt(a, b).Ok?
    ensures Le(a, b) == Ok(true) <==> Lt(a, b) == Ok(true) || a == b
    ensures Le(a, b) == Ok(true) <==> Lt(b, a) == Ok(false)
    ensures Ge(a, b) == Ok(true) <==> Lt(b, a) == Ok(true) || a == b
    ensures Ge(a, b) == Ok(true) <==> Lt(a, b) == Ok(false)
  {
    TupleLessTrichotomy(a.values, b.values);
    TupleLessAsymmetric(a.values, b.values);
  }

  /** Records of different classes are never equal and never less than one
      another, so each is `>=` and even `>` the other: across classes the
      derived operators do not form an order. */
  lemma DifferentClassesUnordered(a: View, b: View)
    requires a.classname != b.classname
    ensures Eq(a, b) == Ok(false) && Lt(a, b) == Ok(false) && Lt(b, a) == Ok(false)
    ensures Ge(a, b) == Ok(true) && Ge(b, a) == Ok(true)
    ensures Gt(a, b) == Ok(true) && Gt(b, a) == Ok(true) && Le(a, b) == Ok(false)
  {
  }
}

=== FILE: records.dfy ===
/** An instance of a class made by `editabletuple` or `editableobject`: one
    value per field, changed in place, every write through the validator. */
module Records {
  import opened Values
  import opened FieldNames
  import opened Schemas
  import opened Slices
  import opened Writes
  import opened Ordering

  class Record {
    const schema: Schema
    /** The field values, position k holding the field `schema.fields[k]`. */
    var values: seq<Value>

    ghost predicate Valid()
      reads this
    {
      WellFormed(schema) && |values| == |schema.fields|
    }

    /** The instance as it is before `__init__` has written any field. */
    constructor (schema: Schema)
      requires WellFormed(schema)
      ensures Valid() && this.schema == schema && values == Unset(|schema.fields|)
    {
      this.schema := schema;
      values := Unset(|schema.fields|);
    }

    /** `Class(*args, **kwargs)`: a new instance, initialised by `Init`; if
        `Init` raises, the half-built instance is dropped and the error is
        raised instead. */
    static method Construct(schema: Schema, args: seq<Value>, kwargs: seq<Write>) returns (r: Result<Record>)
      requires WellFormed(schema)
      ensures r.Ok? ==> fresh(r.value) && r.value.Valid() && r.value.schema == schema
      ensures r.Ok? ==> Build(schema, args, kwargs) == Ok(r.value.values)
      ensures r.Err? ==> Build(schema, args, kwargs) == Err(r.error)
    {
      var rec := new Record(schema);
      var failure := rec.Init(args, kwargs);
      r := if failure.Some? then Err(failure.value) else Ok(rec);
    }

    /** `__init__(*args, **kwargs)`: checks the argument count before any
        write, then writes every field in declared order (positional
        argument, else default, else None), then the keyword arguments in
        the caller's order, refusing a keyword that names no field. */
    method Init(args: seq<Value>, kwargs: seq<Write>) returns (failure: Option<Error>)
      requires Valid() && values == Unset(|schema.fields|)
      modifies this
      ensures Valid()
      ensures failure.None? ==> Build(schema, args, kwargs) == Ok(values)
      ensures failure.Some? ==> Build(schema, args, kwargs) == Err(failure.value)
    {
      if |args| + |kwargs| > |schema.fields| {
        return Some(ArityError(schema, args, kwargs));
      }
      failure := WriteAll(PositionalWrites(schema, args), false);
      if failure.None? {
        failure := WriteAll(kwargs, true);
      }
    }

    /** The writes one after another, each as `setattr` does it; with
        `checkNames` a name that is no field is refused before the validator
        sees it. The first write that fails stops the loop, and the writes
        before it stay done. */
    method WriteAll(writes: seq<Write>, checkNames: bool) returns (failure: Option<Error>)
      requires Valid()
      modifies this
      ensures Valid()
      ensures Progress(values, failure) == Apply(schema, old(values), writes, checkNames)
    {
      var k := 0;
      while k < |writes|
        invariant 0 <= k <= |writes| && Valid()
        invariant Apply(schema, old(values), writes[..k], checkNames) == Progress(values, None)
      {
        var name, value := writes[k].0, writes[k].1;
        if checkNames && name !in schema.fields {
          failure := Some(UnexpectedKeyword(schema.classname, name));
        } else {
          failure := SetAttr(name, value);
        }
        ApplyPrefixStep(schema, old(values), writes, checkNames, k);
        if failure.Some? {
          ApplyKeepsFailure(schema, old(values), writes, checkNames, k + 1);
          return;
        }
        k := k + 1;
      }
      assert writes[..k] == writes;
      return None;
    }

    /** `record.name = value` (`__setattr__`, `_update`): the validator's
        result is stored in that field; if the validator raises, or the name
        is no field, the record is left as it was. */
    method SetAttr(name: string, value: Value) returns (failure: Option<Error>)
      requires Valid()
      modifies this
      ensures Valid()
      ensures Assign(schema, old(values), name, value).Ok? ==>
                failure.None? && values == Assign(schema, old(values), name, value).value
      ensures Assign(schema, old(values), name, value).Err? ==>
                failure == Some(Assign(schema, old(values), name, value).error) && values == old(values)
    {
      var checked := Validate(schema, name, value);
      if checked.Err? {
        return Some(checked.error);
      }
      if name !in schema.fields {
        return Some(NoAttribute(schema.classname, name));
      }
      values := values[IndexOf(schema.fields, name) := checked.value];
      return None;
    }

    /** `record.name`. */
    function GetAttr(name: string): (r: Result<Value>)
      reads this
      requires Valid()
      ensures r.Ok? <==> name in schema.fields
      ensures r.Err? ==> r.error == NoAttribute(schema.classname, name)
      ensures forall k :: 0 <= k < |values| && schema.fields[k] == name ==> r == Ok(values[k])
    {
      if name in schema.fields then Ok(values[IndexOf(schema.fields, name)])
      else Err(NoAttribute(schema.classname, name))
    }

    /** `record[i]` (`__getitem__` with an integer): Python list indexing on
        the field names, then a read by name. */
    function GetItem(i: int): (r: Result<Value>)
      reads this
      requires Valid()
      ensures !schema.indexable ==> r == Err(NotSubscriptable(schema.classname))
      ensures schema.indexable ==> (r.Ok? <==> 0 <= i + |values| && i < |values|)
      ensures schema.indexable && r.Err? ==> r.error == IndexOutOfRange
      ensures schema.indexable && 0 <= i < |values| ==> r == GetAttr(schema.fields[i])
      ensures schema.indexable && 0 <= i + |values| && i < 0 ==> r == GetAttr(schema.fields[i + |values|])
    {
      if !schema.indexable then Err(NotSubscriptable(schema.classname))
      else match NormalizeIndex(i, |schema.fields|)
        case Err(e) => Err(e)
        case Ok(k) => GetAttr(schema.fields[k])
    }

    /** `record[start:stop:step]`: a new list of the values at the positions
        the slice selects, in that order. */
    function GetSlice(sl: Slice): (r: Result<seq<Value>>)
      reads this
      requires Valid()
      ensures !schema.indexable ==> r == Err(NotSubscriptable(schema.classname))
      ensures schema.indexable ==> (r.Err? <==> sl.step == Some(0))
      ensures r.Ok? ==> var positions := SliceIndices(sl, |values|).value;
                        |r.value| == |positions|
                        && forall k :: 0 <= k < |positions| ==> Ok(r.value[k]) == GetItem(positions[k])
    {
      if !schema.indexable then Err(NotSubscriptable(schema.classname))
      else match SliceIndices(sl, |schema.fields|)
        case Err(e) => Err(e)
        case Ok(positions) =>
          var current := values;
          Ok(seq(|positions|, k requires 0 <= k < |positions| => current[positions[k]]))
    }

    /** `record[i] = value` (`__setitem__` with an integer): the index is
        checked first, then the write goes through the validator. */
    method SetItem(i: int, value: Value) returns (failure: Option<Error>)
      requires Valid()
      modifies this
      ensures Valid()
      ensures !schema.indexable ==> failure == Some(NoItemAssignment(schema.classname)) && values == old(values)
      ensures schema.indexable && NormalizeIndex(i, |values|).Err? ==>
                failure == Some(IndexOutOfRange) && values == old(values)
      ensures schema.indexable && NormalizeIndex(i, |values|).Ok? ==>
                var k := NormalizeIndex(i, |values|).value;
                var checked := Validate(schema, schema.fields[k], value);
                (checked.Ok? ==> failure.None? && values == old(values)[k := checked.value])
                && (checked.Err? ==> failure == Some(checked.error) && values == old(values))
    {
      if !schema.indexable {
        return Some(NoItemAssignment(schema.classname));
      }
      var position := NormalizeIndex(i, |schema.fields|);
      if position.Err? {
        return Some(position.error);
      }
      IndexOfDistinct(schema.fields, position.value);
      failure := SetAttr(schema.fields[position.value], value);
    }

    /** `record[start:stop:step] = vs`: the writes of
        `zip(range(*slice.indices(n)), vs)` in order, through the validator;
        a write that fails stops the loop and keeps the writes before it. */
    method SetSlice(sl: Slice, vs: seq<Value>) returns (failure: Option<Error>)
      requires Valid()
      modifies this
      ensures Valid()
      ensures !schema.indexable ==> failure == Some(NoItemAssignment(schema.classname)) && values == old(values)
      ensures schema.indexable && sl.step == Some(0) ==> failure == Some(ZeroSliceStep) && values == old(values)
      ensures schema.indexable && sl.step != Some(0) ==>
                Progress(values, failure)
                == Apply(schema, old(values), SliceWrites(schema, SliceIndices(sl, |values|).value, vs), false)
    {
      if !schema.indexable {
        return Some(NoItemAssignment(schema.classname));
      }
      var selected := SliceIndices(sl, |schema.fields|);
      if selected.Err? {
        return Some(selected.error);
      }
      failure := WriteAll(SliceWrites(schema, selected.value, vs), false);
    }

    /** `del record.name`: always refused; nothing changes. */
    method DelAttr(name: string) returns (e: Error)
      ensures e == DeletionRefused("__delattr__")
    {
      e := DeletionRefused("__delattr__");
    }

    /** `del record[i]` or `del record[i:j]`: always refused; nothing changes. */
    method DelItem() returns (e: Error)
      ensures schema.indexable ==> e == DeletionRefused("__delitem__")
      ensures !schema.indexable ==> e == NoItemDeletion(schema.classname)
    {
      e := if schema.indexable then DeletionRefused("__delitem__") else NoItemDeletion(schema.classname);
    }


    /** `x in record` (`__contains__`): whether some field's value equals `x`. */
    method Contains(x: Value) returns (r: Result<bool>)
      requires Valid()
      ensures !schema.indexable ==> r == Err(NotIterable(schema.classname))
      ensures schema.indexable ==> r == Ok(x in values)
    {
      if !schema.indexable {
        return Err(NotIterable(schema.classname));
      }
      var k := 0;
      while k < |schema.fields|
        invariant 0 <= k <= |schema.fields|
        invariant forall j :: 0 <= j < k ==> values[j] != x
      {
        if values[k] == x {
          return Ok(true);
        }
        k := k + 1;
      }
      return Ok(false);
    }

    /** `tuple(record)`, `list(record)`, `for v in record` (`__iter__`): the
        values in declared field order. */
    function Iter(): (r: Result<seq<Value>>)
      reads this
      requires Valid()
      ensures !schema.indexable ==> r == Err(NotIterable(schema.classname))
      ensures schema.indexable ==> r.Ok? && |r.value| == |schema.fields|
      ensures r.Ok? ==> forall k :: 0 <= k < |r.value| ==> GetAttr(schema.fields[k]) == Ok(r.value[k])
    {
      if schema.indexable then Ok(values) else Err(NotIterable(schema.classname))
    }

    /** `len(record)`: the number of fields, which is the length of
        `list(record)`; the name-only flavour has no length. */
    function Len(): (r: Result<nat>)
      reads this
      requires Valid()
      ensures r.Ok? <==> Iter().Ok?
      ensures r.Ok? ==> r.value == |Iter().value| == |schema.fields|
      ensures r.Err? ==> r.error == NoLength(schema.classname)
    {
      if schema.indexable then Ok(|schema.fields|) else Err(NoLength(schema.classname))
    }

    /** `record.astuple` (name-only flavour): the values in declared field
        order; the indexable flavour has no such attribute. */
    function AsTuple(): (r: Result<seq<Value>>)
      reads this
      requires Valid()
      ensures schema.indexable ==> r == Err(NoAttribute(schema.classname, "astuple"))
      ensures !schema.indexable ==> r.Ok? && |r.value| == |schema.fields|
      ensures r.Ok? ==> forall k :: 0 <= k < |r.value| ==> GetAttr(schema.fields[k]) == Ok(r.value[k])
    {
      if schema.indexable then Err(NoAttribute(schema.classname, "astuple")) else Ok(values)
    }

    /** `record.asdict`: field name to value, in declared field order. */
    function AsDict(): (r: seq<(string, Value)>)
      reads this
      requires Valid()
      ensures |r| == |schema.fields|
      ensures forall k :: 0 <= k < |r| ==> r[k].0 == schema.fields[k] && GetAttr(r[k].0) == Ok(r[k].1)
    {
      IndexOfDistinctAll(schema.fields);
      var current := values;
      seq(|current|, k requires 0 <= k < |current| => (schema.fields[k], current[k]))
    }

    /** `repr(record)`: `Name(f1=v1, f2=v2, ...)`, each value shown by `show`. */
    method Repr(show: Value -> string) returns (s: string)
      requires Valid()
      ensures s == schema.classname + "(" + Join(FieldReprs(schema.fields, values, show), ", ") + ")"
    {
      var pairs: seq<string> := [];
      var k := 0;
      while k < |schema.fields|
        invariant 0 <= k <= |schema.fields|
        invariant pairs == FieldReprs(schema.fields[..k], values[..k], show)
      {
        FieldReprsSnoc(schema.fields[..k + 1], values[..k + 1], show);
        assert schema.fields[..k + 1][..k] == schema.fields[..k];
        assert values[..k + 1][..k] == values[..k];
        pairs := pairs + [schema.fields[k] + "=" + show(values[k])];
        k := k + 1;
      }
      assert schema.fields[..k] == schema.fields && values[..k] == values;
      s := schema.classname + "(" + Join(pairs, ", ") + ")";
    }

    /** What `==` and `<` compare of this record. */
    function AsView(): (v: View)
      reads this
      ensures v.classname == schema.classname && v.indexable == schema.indexable && v.values == values
    {
      View(schema.classname, schema.indexable, values)
    }
  }

  /** The `name=value` parts of a record's repr, in field order. */
  function FieldReprs(fields: seq<string>, values: seq<Value>, show: Value -> string): (r: seq<string>)
    requires |fields| == |values|
    ensures |r| == |fields|
    ensures forall k :: 0 <= k < |r| ==> r[k] == fields[k] + "=" + show(values[k])
  {
    seq(|fields|, k requires 0 <= k < |fields| => fields[k] + "=" + show(values[k]))
  }

  lemma FieldReprsSnoc(fields: seq<string>, values: seq<Value>, show: Value -> string)
    requires |fields| == |values| > 0
    ensures FieldReprs(fields, values, show)
            == FieldReprs(fields[..|fields| - 1], values[..|values| - 1], show)
               + [fields[|fields| - 1] + "=" + show(values[|values| - 1])]
  {
  }

  /** Position and name agree: `record[i]` and `record.<fields[i]>` read the
      same value, and `record[-1]` is the last field. */
  lemma IndexAgreesWithName(r: Record, i: int)
    requires r.Valid() && r.schema.indexable && 0 <= i < |r.values|
    ensures r.GetItem(i) == r.GetAttr(r.schema.fields[i]) == Ok(r.values[i])
    ensures r.GetItem(i - |r.values|) == r.GetItem(i)
  {
  }

  /** `record[:]` is the same list as `list(record)`. */
  lemma FullSliceIsIter(r: Record)
    requires r.Valid() && r.schema.indexable
    ensures r.GetSlice(Slice(None, None, None)) == r.Iter()
  {
    FullSlice(|r.values|);
    assert r.GetSlice(Slice(None, None, None)).value == r.values;
  }

  /** After `record[sl] = vs` completes, the k-th selected field holds the
      validator's verdict on `vs[k]` for every k below the shorter length,
      and every field the slice does not select (or selects beyond the end
      of `vs`) is unchanged. */
  lemma SliceAssignment(schema: Schema, values: seq<Value>, sl: Slice, vs: seq<Value>, p: nat)
    requires WellFormed(schema) && |values| == |schema.fields| && p < |values|
    requires SliceIndices(sl, |values|).Ok?
    ensures var positions := SliceIndices(sl, |values|).value;
            var after := Apply(schema, values, SliceWrites(schema, positions, vs), false);
            (after.failure.None? ==>
               forall k :: 0 <= k < |positions| && k < |vs| && positions[k] == p ==>
                 Validate(schema, schema.fields[p], vs[k]).Ok?
                 && after.values[p] == Validate(schema, schema.fields[p], vs[k]).value)
            && ((forall k :: 0 <= k < |positions| && k < |vs| ==> positions[k] != p) ==> after.values[p] == values[p])
  {
    var positions := SliceIndices(sl, |values|).value;
    forall i, j | 0 <= i < j < |positions| ensures positions[i] != positions[j] {
      SliceIndicesDistinct(sl, |values|, i, j);
    }
    var after := Apply(schema, values, SliceWrites(schema, positions, vs), false);
    if after.failure.None? {
      forall k | 0 <= k < |positions| && k < |vs| && positions[k] == p
        ensures Validate(schema, schema.fields[p], vs[k]).Ok?
        ensures after.values[p] == Validate(schema, schema.fields[p], vs[k]).value
      {
        SliceAssignWrites(schema, values, positions, vs, k);
      }
    }
    if forall k :: 0 <= k < |positions| && k < |vs| ==> positions[k] != p {
      SliceAssignFrame(schema, values, positions, vs, p);
    }
  }

  /** `Class(*record) == record`: rebuilding a record from its own values
      gives an equal record, when the validator accepts each stored value
      as it is. */
  lemma CopyEqualsOriginal(r: Record)
    requires r.Valid() && r.schema.indexable
    requires forall k :: 0 <= k < |r.values| ==> Validate(r.schema, r.schema.fields[k], r.values[k]) == Ok(r.values[k])
    ensures Build(r.schema, r.Iter().value, []).Ok?
    ensures Eq(View(r.schema.classname, true, Build(r.schema, r.Iter().value, []).value), r.AsView()) == Ok(true)
  {
    BuildRoundTrip(r.schema, r.values);
  }
}

=== FILE: scenarios.dfy ===
/** The worked examples of the two factories' documentation, replayed on the
    model. Floating-point alpha values are replaced by integers: alpha is
    kept in 0..100 and 100 stands for 1.0 (fully opaque). */
module Scenarios {
  import opened Values
  import opened FieldNames
  import opened Schemas
  import opened Slices
  import opened Writes
  import opened Ordering
  import opened Records

  /** `'red green blue'.split()`. */
  lemma SplitRgbNames()
    ensures FieldList(["red green blue"]) == ["red", "green", "blue"]
  {
    var words := ["red", "green", "blue"];
    forall k | 0 <= k < |words| ensures IsWord(words[k]) {
    }
    SplitJoin(words);
    assert Join(words, " ") == "red green blue";
  }

  function Rgb(): Schema
  {
    Schema("Rgb", ["red", "green", "blue"], Some([IntValue(0), IntValue(0), IntValue(0)]), None, true)
  }

  lemma RgbWellFormed()
    ensures WellFormed(Rgb())
  {
  }

  /** `Rgb()` is black: every field takes its default. */
  lemma RgbDefaults()
    ensures Build(Rgb(), [], []) == Ok([IntValue(0), IntValue(0), IntValue(0)])
  {
    RgbWellFormed();
    RgbDefaultsAt(0);
    RgbDefaultsAt(1);
    RgbDefaultsAt(2);
    assert Build(Rgb(), [], []).value == [IntValue(0), IntValue(0), IntValue(0)];
  }

  lemma RgbDefaultsAt(i: nat)
    requires WellFormed(Rgb()) && i < 3
    ensures Build(Rgb(), [], []).Ok? && |Build(Rgb(), [], []).value| == 3
    ensures Build(Rgb(), [], []).value[i] == IntValue(0)
  {
    var rgb := Rgb();
    RgbWellFormed();
    BuildSucceeds(rgb, [], []);
    BuildDefaulting(rgb, [], [], i);
  }


  /** `Rgb(blue=128)` is navy: the keyword overrides one default, the other
      fields keep theirs. */
  lemma RgbOverride()
    ensures Build(Rgb(), [], [("blue", IntValue(128))]) == Ok([IntValue(0), IntValue(0), IntValue(128)])
  {
    RgbWellFormed();
    RgbOverrideAt(0);
    RgbOverrideAt(1);
    RgbOverrideAt(2);
    assert Build(Rgb(), [], [("blue", IntValue(128))]).value == [IntValue(0), IntValue(0), IntValue(128)];
  }

  lemma RgbOverrideAt(i: nat)
    requires WellFormed(Rgb()) && i < 3
    ensures Build(Rgb(), [], [("blue", IntValue(128))]).Ok? && |Build(Rgb(), [], [("blue", IntValue(128))]).value| == 3
    ensures Build(Rgb(), [], [("blue", IntValue(128))]).value[i] == [IntValue(0), IntValue(0), IntValue(128)][i]
  {
    var rgb, navy := Rgb(), [("blue", IntValue(128))];
    RgbWellFormed();
    BuildSucceeds(rgb, [], navy);
    if i < 2 {
      BuildDefaulting(rgb, [], navy, i);
    } else {
      BuildOverride(rgb, [], navy, 0, 2);
    }
  }


  /** `Rgb(238, 130, 238)`: positional arguments fill the fields in order. */
  lemma RgbPositional()
    ensures Build(Rgb(), [IntValue(238), IntValue(130), IntValue(238)], [])
            == Ok([IntValue(238), IntValue(130), IntValue(238)])
  {
    RgbWellFormed();
    BuildRoundTrip(Rgb(), [IntValue(238), IntValue(130), IntValue(238)]);
  }

  /** The colour validator: red, green and blue must be in 0..255, an alpha
      outside 0..100 silently becomes 100. Comparing a non-number raises. */
  function CheckRgba(name: string, v: Value): Result<Value>
  {
    if !v.IntValue? then Err(Unorderable)
    else if name == "alpha" then (if 0 <= v.i <= 100 then Ok(v) else Ok(IntValue(100)))
    else if 0 <= v.i <= 255 then Ok(v)
    else Err(Invalid("color value must be 0-255"))
  }

  function Rgba(): Schema
  {
    Schema("Rgba", ["red", "green", "blue", "alpha"],
           Some([IntValue(0), IntValue(0), IntValue(0), IntValue(100)]), Some(CheckRgba), true)
  }

  lemma RgbaWellFormed()
    ensures WellFormed(Rgba())
  {
  }

  /** The validator keeps a colour value in range as it is. */
  lemma RgbaColorAccepted(name: string, v: int)
    requires name == "red" || name == "green" || name == "blue"
    requires 0 <= v <= 255
    ensures Validate(Rgba(), name, IntValue(v)) == Ok(IntValue(v))
  {
  }

  /** The validator keeps an alpha in range and turns any other into 100. */
  lemma RgbaAlphaClamped(v: int)
    ensures Validate(Rgba(), "alpha", IntValue(v)) == Ok(IntValue(if 0 <= v <= 100 then v else 100))
  {
  }

  lemma RgbaAlphaAccepted()
    ensures Build(Rgba(), [IntValue(238), IntValue(130), IntValue(238)], [("alpha", IntValue(250))]).Ok?
  {
    var rgba := Rgba();
    var violet, alpha := [IntValue(238), IntValue(130), IntValue(238)], [("alpha", IntValue(250))];
    RgbaWellFormed();
    RgbaColorAccepted("red", 238);
    RgbaColorAccepted("green", 130);
    RgbaColorAccepted("blue", 238);
    RgbaAlphaClamped(100);
    RgbaAlphaClamped(250);
    assert forall i :: 0 <= i < 4 ==> Validate(rgba, rgba.fields[i], Initial(rgba, violet, i)).Ok?;
    BuildSucceeds(rgba, violet, alpha);
  }

  /** An alpha that is too big is stored as 100. */
  lemma RgbaAlphaCorrected()
    ensures Build(Rgba(), [IntValue(238), IntValue(130), IntValue(238)], [("alpha", IntValue(250))])
            == Ok([IntValue(238), IntValue(130), IntValue(238), IntValue(100)])
  {
    RgbaAlphaCorrectedFields(Rgba(), [IntValue(238), IntValue(130), IntValue(238)], [("alpha", IntValue(250))]);
  }

  /** The same, with the arguments as variables so that the field-by-field
      facts combine without unfolding the construction on literals. */
  lemma RgbaAlphaCorrectedFields(rgba: Schema, args: seq<Value>, kwargs: seq<Write>)
    requires rgba == Rgba() && args == [IntValue(238), IntValue(130), IntValue(238)] && kwargs == [("alpha", IntValue(250))]
    ensures WellFormed(rgba) && Build(rgba, args, kwargs) == Ok([IntValue(238), IntValue(130), IntValue(238), IntValue(100)])
  {
    RgbaWellFormed();
    RgbaAlphaCorrectedAt(0);
    RgbaAlphaCorrectedAt(1);
    RgbaAlphaCorrectedAt(2);
    RgbaAlphaCorrectedAt(3);
    assert Build(rgba, args, kwargs).value == [IntValue(238), IntValue(130), IntValue(238), IntValue(100)];
  }


  lemma RgbaAlphaCorrectedAt(i: nat)
    requires WellFormed(Rgba()) && i < 4
    ensures var r := Build(Rgba(), [IntValue(238), IntValue(130), IntValue(238)], [("alpha", IntValue(250))]);
            r.Ok? && |r.value| == 4 && r.value[i] == [IntValue(238), IntValue(130), IntValue(238), IntValue(100)][i]
  {
    var rgba := Rgba();
    var violet, alpha := [IntValue(238), IntValue(130), IntValue(238)], [("alpha", IntValue(250))];
    RgbaWellFormed();
    RgbaAlphaAccepted();
    if i < 3 {
      BuildDefaulting(rgba, violet, alpha, i);
      RgbaColorAccepted(rgba.fields[i], if i == 1 then 130 else 238);
    } else {
      BuildOverride(rgba, violet, alpha, 0, 3);
      RgbaAlphaClamped(250);
    }
  }


  /** A colour value out of range in the keyword pass makes construction fail. */
  lemma RgbaKeywordRefused()
    ensures Build(Rgba(), [], [("green", IntValue(99)), ("blue", IntValue(256))])
            == Err(Invalid("color value must be 0-255"))
  {
    var rgba := Rgba();
    RgbaWellFormed();
    var kwargs := [("green", IntValue(99)), ("blue", IntValue(256))];
    assert Initial(rgba, [], 3) == IntValue(100);
    assert forall i :: 0 <= i < 4 ==> Validate(rgba, rgba.fields[i], Initial(rgba, [], i)).Ok?;
    BuildKeywordError(rgba, [], kwargs, 1);
  }

  /** A colour value out of range in the positional pass makes construction
      fail. */
  lemma RgbaPositionalRefused()
    ensures Build(Rgba(), [IntValue(100), IntValue(200), IntValue(300)], [])
            == Err(Invalid("color value must be 0-255"))
  {
    var rgba := Rgba();
    RgbaWellFormed();
    var args := [IntValue(100), IntValue(200), IntValue(300)];
    assert Initial(rgba, args, 2) == IntValue(300);
    BuildPositionalErrorFirst(rgba, args, [], 2);
  }

  function Point(): Schema
  {
    Schema("Point", ["x", "y"], None, None, true)
  }

  lemma PointWellFormed()
    ensures WellFormed(Point())
  {
  }

  /** Too many arguments, and a keyword that names no field. */
  lemma PointConstructionErrors()
    ensures Build(Point(), [IntValue(1), IntValue(2), IntValue(3)], []) == Err(TooManyArguments("Point", 2, 3))
    ensures Build(Point(), [], [("z", IntValue(1))]) == Err(UnexpectedKeyword("Point", "z"))
  {
    PointWellFormed();
    BuildUnknownKeyword(Point(), [], [("z", IntValue(1))], 0);
  }

  /** Without defaults a field no argument names is None. */
  lemma PointMissingCoordinate()
    ensures Build(Point(), [IntValue(3)], []) == Ok([IntValue(3), NoneValue])
  {
    var point := Point();
    PointWellFormed();
    BuildSucceeds(point, [IntValue(3)], []);
    var r := Build(point, [IntValue(3)], []).value;
    BuildDefaulting(point, [IntValue(3)], [], 0);
    BuildDefaulting(point, [IntValue(3)], [], 1);
    assert r == [IntValue(3), NoneValue];
  }

  /** `Point(3, 4) < Point(3, 5)`, `Point(3, 5) > Point(3, 4)`, and the two
      are not equal. */
  lemma PointOrdering()
    ensures var p, q := View("Point", true, [IntValue(3), IntValue(4)]), View("Point", true, [IntValue(3), IntValue(5)]);
            Lt(p, q) == Ok(true) && Lt(q, p) == Ok(false) && Gt(q, p) == Ok(true) && Eq(p, q) == Ok(false)
            && Le(p, q) == Ok(true) && Ge(p, q) == Ok(false)
  {
  }

  /** `color[-1]` on a four-field record is its last field. */
  lemma ColorLast()
    ensures NormalizeIndex(-1, 4) == Ok(3)
  {
  }

  /** `color[:3]` on a four-field record selects the first three fields. */
  lemma ColorPrefix()
    ensures SliceIndices(Slice(None, Some(3), None), 4) == Ok([0, 1, 2])
  {
    assert Indices(Slice(None, Some(3), None), 4) == Ok(Bounds(0, 3, 1));
    RangeAscending(0, 3);
    assert seq(3 - 0, i => 0 + i) == [0, 1, 2];
  }


  /** `color[1:3]` selects the second and third fields. */
  lemma ColorMiddle()
    ensures SliceIndices(Slice(Some(1), Some(3), None), 4) == Ok([1, 2])
  {
    PlainSlice(1, 3, 4);
    assert seq(2, i => 1 + i) == [1, 2];
  }

  /** `color[1:3] = (20, 25)` replaces the green and blue values. */
  lemma ColorSliceCompletes()
    ensures Apply(Rgba(), [IntValue(100), IntValue(200), IntValue(250), IntValue(100)],
                  SliceWrites(Rgba(), [1, 2], [IntValue(20), IntValue(25)]), false).failure.None?
  {
    var rgba := Rgba();
    RgbaWellFormed();
    var values := [IntValue(100), IntValue(200), IntValue(250), IntValue(100)];
    var w := SliceWrites(rgba, [1, 2], [IntValue(20), IntValue(25)]);
    assert w == [("green", IntValue(20)), ("blue", IntValue(25))];
    RgbaColorAccepted("green", 20);
    RgbaColorAccepted("blue", 25);
    ApplyCompletes(rgba, values, w, false);
  }

  lemma ColorSliceAssignment()
    ensures Apply(Rgba(), [IntValue(100), IntValue(200), IntValue(250), IntValue(100)],
                  SliceWrites(Rgba(), [1, 2], [IntValue(20), IntValue(25)]), false)
            == Progress([IntValue(100), IntValue(20), IntValue(25), IntValue(100)], None)
  {
    RgbaWellFormed();
    ColorSliceAssignmentFields(Rgba(), [IntValue(100), IntValue(200), IntValue(250), IntValue(100)],
                               SliceWrites(Rgba(), [1, 2], [IntValue(20), IntValue(25)]));
  }

  lemma ColorSliceAssignmentFields(rgba: Schema, values: seq<Value>, writes: seq<Write>)
    requires rgba == Rgba() && values == [IntValue(100), IntValue(200), IntValue(250), IntValue(100)]
    requires writes == SliceWrites(Rgba(), [1, 2], [IntValue(20), IntValue(25)])
    ensures WellFormed(rgba) && |values| == |rgba.fields|
    ensures Apply(rgba, values, writes, false) == Progress([IntValue(100), IntValue(20), IntValue(25), IntValue(100)], None)
  {
    RgbaWellFormed();
    ColorSliceKept(0);
    ColorSliceWritten(1);
    ColorSliceWritten(2);
    ColorSliceKept(3);
    ColorSliceCompletes();
    assert Apply(rgba, values, writes, false).values == [IntValue(100), IntValue(20), IntValue(25), IntValue(100)];
  }


  /** Green and blue take the new values. */
  lemma ColorSliceWritten(p: nat)
    requires WellFormed(Rgba()) && (p == 1 || p == 2)
    ensures var after := Apply(Rgba(), [IntValue(100), IntValue(200), IntValue(250), IntValue(100)],
                               SliceWrites(Rgba(), [1, 2], [IntValue(20), IntValue(25)]), false);
            |after.values| == 4 && after.values[p] == [IntValue(100), IntValue(20), IntValue(25), IntValue(100)][p]
  {
    ColorSliceCompletes();
    SliceAssignWrites(Rgba(), [IntValue(100), IntValue(200), IntValue(250), IntValue(100)],
                      [1, 2], [IntValue(20), IntValue(25)], p - 1);
    RgbaColorAccepted(Rgba().fields[p], if p == 1 then 20 else 25);
  }

  /** Red and alpha keep theirs. */
  lemma ColorSliceKept(p: nat)
    requires WellFormed(Rgba()) && (p == 0 || p == 3)
    ensures var after := Apply(Rgba(), [IntValue(100), IntValue(200), IntValue(250), IntValue(100)],
                               SliceWrites(Rgba(), [1, 2], [IntValue(20), IntValue(25)]), false);
            |after.values| == 4 && after.values[p] == [IntValue(100), IntValue(20), IntValue(25), IntValue(100)][p]
  {
    SliceAssignFrame(Rgba(), [IntValue(100), IntValue(200), IntValue(250), IntValue(100)],
                     [1, 2], [IntValue(20), IntValue(25)], p);
  }

  lemma RgbaGreenAccepted()
    ensures Build(Rgba(), [], [("green", IntValue(99))]).Ok?
  {
    var rgba, green := Rgba(), [("green", IntValue(99))];
    RgbaWellFormed();
    RgbaColorAccepted("red", 0);
    RgbaColorAccepted("green", 0);
    RgbaColorAccepted("blue", 0);
    RgbaColorAccepted("green", 99);
    RgbaAlphaClamped(100);
    assert forall i :: 0 <= i < 4 ==> Validate(rgba, rgba.fields[i], Initial(rgba, [], i)).Ok?;
    BuildSucceeds(rgba, [], green);
  }

  /** `Rgba(green=99)`: one keyword, the other fields at their defaults. */
  lemma RgbaGreen()
    ensures Build(Rgba(), [], [("green", IntValue(99))]) == Ok([IntValue(0), IntValue(99), IntValue(0), IntValue(100)])
  {
    RgbaGreenFields(Rgba(), [("green", IntValue(99))]);
  }

  lemma RgbaGreenFields(rgba: Schema, kwargs: seq<Write>)
    requires rgba == Rgba() && kwargs == [("green", IntValue(99))]
    ensures WellFormed(rgba) && Build(rgba, [], kwargs) == Ok([IntValue(0), IntValue(99), IntValue(0), IntValue(100)])
  {
    RgbaWellFormed();
    RgbaGreenAt(0);
    RgbaGreenAt(1);
    RgbaGreenAt(2);
    RgbaGreenAt(3);
    assert Build(rgba, [], kwargs).value == [IntValue(0), IntValue(99), IntValue(0), IntValue(100)];
  }


  lemma RgbaGreenAt(i: nat)
    requires WellFormed(Rgba()) && i < 4
    ensures var r := Build(Rgba(), [], [("green", IntValue(99))]);
            r.Ok? && |r.value| == 4 && r.value[i] == [IntValue(0), IntValue(99), IntValue(0), IntValue(100)][i]
  {
    var rgba, green := Rgba(), [("green", IntValue(99))];
    RgbaWellFormed();
    RgbaGreenAccepted();
    if i == 1 {
      BuildOverride(rgba, [], green, 0, 1);
      RgbaColorAccepted("green", 99);
    } else if i == 3 {
      BuildDefaulting(rgba, [], green, 3);
      RgbaAlphaClamped(100);
    } else {
      BuildDefaulting(rgba, [], green, i);
      RgbaColorAccepted(rgba.fields[i], 0);
    }
  }


  /** `color = Rgba(green=99)` and the updates that follow it: writes by
      name and by position go through the validator. */
  method ColorSession() returns (color: Record)
    ensures fresh(color) && color.Valid() && color.schema == Rgba()
    ensures color.values == [IntValue(128), IntValue(99), IntValue(240), IntValue(50)]
  {
    color := NewColor();
    RgbaWellFormed();
    RgbaColorAccepted("red", 128);
    var failure := color.SetAttr("red", IntValue(128));
    assert color.values == [IntValue(128), IntValue(99), IntValue(0), IntValue(100)];
    ColorPositionalUpdates(color);
    ColorRefusals(color);
  }

  /** `Rgba(green=99)`, read back by position and by name. */
  method NewColor() returns (color: Record)
    ensures fresh(color) && color.Valid() && color.schema == Rgba()
    ensures color.values == [IntValue(0), IntValue(99), IntValue(0), IntValue(100)]
  {
    RgbaWellFormed();
    var made := Record.Construct(Rgba(), [], [("green", IntValue(99))]);
    RgbaGreen();
    color := made.value;
    assert color.GetItem(1) == color.GetAttr("green") == Ok(IntValue(99));
  }


  /** `color[2] = 240` and `color[-1] = 0.5` (here 50). */
  method ColorPositionalUpdates(color: Record)
    requires color.Valid() && color.schema == Rgba()
    requires color.values == [IntValue(128), IntValue(99), IntValue(0), IntValue(100)]
    modifies color
    ensures color.Valid() && color.values == [IntValue(128), IntValue(99), IntValue(240), IntValue(50)]
  {
    RgbaColorAccepted("blue", 240);
    var failure := color.SetItem(2, IntValue(240));
    assert color.values == [IntValue(128), IntValue(99), IntValue(240), IntValue(100)];
    RgbaAlphaClamped(50);
    failure := color.SetItem(-1, IntValue(50));
  }

  /** The validator refuses a colour value outside 0..255. */
  lemma RgbaColorRefused(name: string, v: int)
    requires name == "red" || name == "green" || name == "blue"
    requires v < 0 || 255 < v
    ensures Validate(Rgba(), name, IntValue(v)) == Err(Invalid("color value must be 0-255"))
  {
  }

  /** `color[1] = 299`, `color.green = 399`, `color.blue = -65`: each write
      is refused and the record keeps its values. */
  method ColorRefusals(color: Record)
    requires color.Valid() && color.schema == Rgba()
    modifies color
    ensures color.Valid() && color.values == old(color.values)
  {
    RgbaColorRefused("green", 299);
    var failure := color.SetItem(1, IntValue(299));
    assert failure == Some(Invalid("color value must be 0-255"));
    RgbaColorRefused("green", 399);
    failure := color.SetAttr("green", IntValue(399));
    assert failure == Some(Invalid("color value must be 0-255"));
    RgbaColorRefused("blue", -65);
    failure := color.SetAttr("blue", IntValue(-65));
    assert failure == Some(Invalid("color value must be 0-255"));
  }

  /** `p = Point(3, 4)`: membership (`5 in p`, `4 in p`), then `del p.y`,
      `del p[0]`, `p.z = 99` and `p[3] = 5`, each refused with `p` unchanged. */
  method PointSession() returns (p: Record, found: seq<Result<bool>>, refused: seq<Error>)
    ensures fresh(p) && p.Valid() && p.schema == Point()
    ensures p.values == [IntValue(3), IntValue(4)]
    ensures found == [Ok(false), Ok(true)]
    ensures refused == [DeletionRefused("__delattr__"), DeletionRefused("__delitem__"),
                        NoAttribute("Point", "z"), IndexOutOfRange]
  {
    var made := Record.Construct(Point(), [IntValue(3), IntValue(4)], []);
    PointWellFormed();
    BuildRoundTrip(Point(), [IntValue(3), IntValue(4)]);
    p := made.value;

    var five := p.Contains(IntValue(5));
    var four := p.Contains(IntValue(4));
    found := [five, four];

    var attr := p.DelAttr("y");
    var item := p.DelItem();
    var failure := p.SetAttr("z", IntValue(99));
    var z := failure.value;
    failure := p.SetItem(3, IntValue(5));
    refused := [attr, item, z, failure.value];
  }
}

=== FILE: schemas.dfy ===
/** The record class a factory call produces: its name, its field names in
    order, its defaults, its validator and its flavour. */
module Schemas {
  import opened Values
  import opened FieldNames

  /** Called on every write with the field name and the candidate value;
      returns the value to store, or the error it raises. */
  type Validator = (string, Value) -> Result<Value>

  datatype Schema = Schema(
    classname: string,
    fields: seq<string>,
    defaults: Option<seq<Value>>,
    validator: Option<Validator>,
    // true for editabletuple (positions, slices, iteration), false for editableobject
    indexable: bool)

  predicate Distinct(fields: seq<string>)
  {
    forall i, j :: 0 <= i < j < |fields| ==> fields[i] != fields[j]
  }

  /** The schemas this model covers: field names do not repeat. */
  predicate WellFormed(schema: Schema)
  {
    Distinct(schema.fields)
  }

  /** The field list from the factory's `*fieldnames`: a single argument is
      a whitespace-separated string of names, several are the names. */
  function FieldList(fieldnames: seq<string>): (fields: seq<string>)
    ensures |fieldnames| != 1 ==> fields == fieldnames
    ensures |fieldnames| == 1 ==> forall k :: 0 <= k < |fields| ==> IsWord(fields[k])
    ensures |fieldnames| == 1 ==> Concat(fields) == Squeeze(fieldnames[0])
  {
    if |fieldnames| == 1 then
      SplitKeepsCharacters(fieldnames[0]);
      Split(fieldnames[0])
    else fieldnames
  }

  /** `editabletuple(classname, *fieldnames, defaults=..., validator=...)`. */
  function EditableTuple(classname: string, fieldnames: seq<string>,
                         defaults: Option<seq<Value>>, validator: Option<Validator>): (s: Schema)
    ensures s.classname == classname && s.indexable
    ensures |fieldnames| != 1 ==> s.fields == fieldnames
    ensures |fieldnames| == 1 ==> (forall k :: 0 <= k < |s.fields| ==> IsWord(s.fields[k]))
                                  && Concat(s.fields) == Squeeze(fieldnames[0])
    ensures s.defaults == defaults && s.validator == validator
  {
    Schema(classname, FieldList(fieldnames), defaults, validator, true)
  }

  /** `editableobject(classname, *fieldnames, defaults=..., validator=...)`. */
  function EditableObject(classname: string, fieldnames: seq<string>,
                          defaults: Option<seq<Value>>, validator: Option<Validator>): (s: Schema)
    ensures s.classname == classname && !s.indexable
    ensures |fieldnames| != 1 ==> s.fields == fieldnames
    ensures |fieldnames| == 1 ==> (forall k :: 0 <= k < |s.fields| ==> IsWord(s.fields[k]))
                                  && Concat(s.fields) == Squeeze(fieldnames[0])
    ensures s.defaults == defaults && s.validator == validator
  {
    Schema(classname, FieldList(fieldnames), defaults, validator, false)
  }

  /** The first position of `name` in `fields`. */
  function IndexOf(fields: seq<string>, name: string): (k: nat)
    requires name in fields
    ensures k < |fields| && fields[k] == name
    ensures forall j :: 0 <= j < k ==> fields[j] != name
  {
    if fields[0] == name then 0 else 1 + IndexOf(fields[1..], name)
  }

  /** In a list of distinct names, the position of `fields[i]` is `i`. */
  lemma IndexOfDistinct(fields: seq<string>, i: nat)
    requires Distinct(fields) && i < |fields|
    ensures IndexOf(fields, fields[i]) == i
  {
    var k := IndexOf(fields, fields[i]);
    if k < i {
      assert false;
    }
  }

  lemma IndexOfDistinctAll(fields: seq<string>)
    requires Distinct(fields)
    ensures forall i :: 0 <= i < |fields| ==> IndexOf(fields, fields[i]) == i
  {
    forall i | 0 <= i < |fields| ensures IndexOf(fields, fields[i]) == i {
      IndexOfDistinct(fields, i);
    }
  }

  /** The value a write actually stores: the validator's verdict, or the
      candidate itself when the class has no validator. */
  function Validate(schema: Schema, name: string, value: Value): Result<Value>
  {
    match schema.validator
    case None => Ok(value)
    case Some(check) => check(name, value)
  }

  /** The default of field `i`: from `defaults` when given and long enough,
      otherwise None. */
  function DefaultFor(schema: Schema, i: nat): Value
  {
    if schema.defaults.Some? && i < |schema.defaults.value| then schema.defaults.value[i] else NoneValue
  }

  /** The value the constructor's first pass offers field `i`: the positional
      argument when there is one, otherwise the default. */
  function Initial(schema: Schema, args: seq<Value>, i: nat): Value
  {
    if i < |args| then args[i] else DefaultFor(schema, i)
  }
}

=== FILE: slices.dfy ===
/** Python's rules for positions in a sequence of length n: list indexing
    with negative indices, `slice.indices(n)` and `range(start, stop, step)`. */
module Slices {
  import opened Values

  /** The position `fields[i]` reads in a list of length `n`: a negative `i`
      counts from the end; anything outside `-n .. n-1` raises IndexError. */
  function NormalizeIndex(i: int, n: nat): (r: Result<nat>)
    ensures r.Ok? <==> 0 <= i + n && i < n
    ensures r.Err? ==> r.error == IndexOutOfRange
    ensures r.Ok? ==> r.value < n && r.value % n == i % n
  {
    if i + n < 0 || n <= i then Err(IndexOutOfRange)
    else if i < 0 then Ok(i + n)
    else Ok(i)
  }

  /** A slice object `start:stop:step`; `None` marks an omitted part. */
  datatype Slice = Slice(start: Option<int>, stop: Option<int>, step: Option<int>)

  datatype Bounds = Bounds(start: int, stop: int, step: int)

  /** One end of a slice, clamped as `slice.indices` does: an omitted end
      takes `omitted`; a negative one counts from the end and is raised to
      `lower` if still below it; a non-negative one is cut to `upper`. */
  function Clamp(given: Option<int>, omitted: int, n: nat, lower: int, upper: int): (r: int)
    requires lower <= 0 && lower <= upper && n - 1 <= upper
    ensures given.None? ==> r == omitted
    ensures given.Some? ==> lower <= r <= upper
    ensures given.Some? && given.value < 0 && given.value + n >= lower ==> r == given.value + n
    ensures given.Some? && given.value + n < lower ==> r == lower
    ensures given.Some? && 0 <= given.value <= upper ==> r == given.value
    ensures given.Some? && given.value > upper ==> r == upper
  {
    match given
    case None => omitted
    case Some(x) =>
      if x < 0 then (if x + n < lower then lower else x + n)
      else if x > upper then upper
      else x
  }

  /** `slice.indices(n)`: the `(start, stop, step)` of the range a slice
      selects in a sequence of length n. A step of 0 raises ValueError. */
  function Indices(sl: Slice, n: nat): (r: Result<Bounds>)
    ensures r.Err? <==> sl.step == Some(0)
    ensures r.Err? ==> r.error == ZeroSliceStep
    ensures r.Ok? ==> r.value.step == (if sl.step.None? then 1 else sl.step.value)
    ensures r.Ok? && r.value.step > 0 ==> 0 <= r.value.start <= n && 0 <= r.value.stop <= n
    ensures r.Ok? && r.value.step < 0 ==> -1 <= r.value.start < n && -1 <= r.value.stop < n
  {
    var step := if sl.step.None? then 1 else sl.step.value;
    if step == 0 then Err(ZeroSliceStep)
    else
      var lower := if step < 0 then -1 else 0;
      var upper := if step < 0 then n - 1 else n;
      var start := Clamp(sl.start, if step < 0 then upper else lower, n, lower, upper);
      var stop := Clamp(sl.stop, if step < 0 then lower else upper, n, lower, upper);
      Ok(Bounds(start, stop, step))
  }

  /** Whether `range(., stop, step)` still produces `i`. */
  predicate Before(i: int, stop: int, step: int)
  {
    (step > 0 && i < stop) || (step < 0 && i > stop)
  }

  /** `range(start, stop, step)`: the arithmetic progression from `start`
      by `step`, as long as it stays on the near side of `stop`. */
  function Range(start: int, stop: int, step: int): (r: seq<int>)
    requires step != 0
    ensures |r| > 0 <==> Before(start, stop, step)
    ensures |r| > 0 ==> r[0] == start && !Before(r[|r| - 1] + step, stop, step)
    ensures forall k :: 0 <= k < |r| ==> Before(r[k], stop, step)
    ensures forall k :: 0 <= k < |r| ==> (step > 0 ==> start <= r[k]) && (step < 0 ==> r[k] <= start)
    ensures forall k :: 0 <= k < |r| - 1 ==> r[k + 1] == r[k] + step
    decreases if step > 0 then stop - start else start - stop
  {
    if Before(start, stop, step) then [start] + Range(start + step, stop, step) else []
  }

  /** The values of a range are strictly increasing (positive step) or
      strictly decreasing (negative step), so no position repeats. */
  lemma {:induction false} RangeMonotone(start: int, stop: int, step: int, j: nat, k: nat)
    requires step != 0
    requires j < k < |Range(start, stop, step)|
    ensures var r := Range(start, stop, step);
            (step > 0 ==> r[j] < r[k]) && (step < 0 ==> r[j] > r[k])
    decreases k
  {
    var r := Range(start, stop, step);
    if j < k - 1 {
      RangeMonotone(start, stop, step, j, k - 1);
    }
    assert r[k] == r[k - 1] + step;
  }

  /** `range(*sl.indices(n))`: the positions a slice selects, in order. */
  function SliceIndices(sl: Slice, n: nat): (r: Result<seq<int>>)
    ensures r.Err? <==> sl.step == Some(0)
    ensures r.Err? ==> r.error == ZeroSliceStep
    ensures r.Ok? ==> forall k :: 0 <= k < |r.value| ==> 0 <= r.value[k] < n
  {
    match Indices(sl, n)
    case Err(e) => Err(e)
    case Ok(b) => Ok(Range(b.start, b.stop, b.step))
  }

  /** A slice never selects a position twice. */
  lemma SliceIndicesDistinct(sl: Slice, n: nat, j: nat, k: nat)
    requires SliceIndices(sl, n).Ok?
    requires j < k < |SliceIndices(sl, n).value|
    ensures SliceIndices(sl, n).value[j] != SliceIndices(sl, n).value[k]
  {
    var b := Indices(sl, n).value;
    RangeMonotone(b.start, b.stop, b.step, j, k);
  }

  lemma {:induction false} RangeAscending(start: int, stop: int)
    requires start <= stop
    ensures Range(start, stop, 1) == seq(stop - start, i => start + i)
    decreases stop - start
  {
    if start < stop {
      RangeAscending(start + 1, stop);
      var tail := seq(stop - (start + 1), i => start + 1 + i);
      var all := seq(stop - start, i => start + i);
      assert Range(start, stop, 1) == [start] + Range(start + 1, stop, 1);
      forall i | 0 <= i < |all| ensures all[i] == ([start] + tail)[i] {
      }
      assert all == [start] + tail;
    }
  }

  /** `[:]` selects every position in order: `range(0, n, 1)`. */
  lemma FullSlice(n: nat)
    ensures SliceIndices(Slice(None, None, None), n) == Ok(seq(n, i => i))
  {
    RangeAscending(0, n);
    assert seq(n - 0, i => 0 + i) == seq(n, i => i);
  }

  lemma {:induction false} RangeDescending(start: int, stop: int)
    requires stop <= start
    ensures Range(start, stop, -1) == seq(start - stop, i => start - i)
    decreases start - stop
  {
    if stop < start {
      RangeDescending(start - 1, stop);
      var tail := seq(start - 1 - stop, i => start - 1 - i);
      var all := seq(start - stop, i => start - i);
      assert Range(start, stop, -1) == [start] + Range(start - 1, stop, -1);
      forall i | 0 <= i < |all| ensures all[i] == ([start] + tail)[i] {
      }
      assert all == [start] + tail;
    }
  }

  /** `[::-1]` selects every position from the last to the first. */
  lemma ReversedSlice(n: nat)
    ensures SliceIndices(Slice(None, None, Some(-1)), n) == Ok(seq(n, i => n - 1 - i))
  {
    RangeDescending(n - 1, -1);
  }

  /** `[a:b]` with `0 <= a <= b <= n` selects exactly `a, a+1, ..., b-1`. */
  lemma PlainSlice(a: nat, b: nat, n: nat)
    requires a <= b <= n
    ensures SliceIndices(Slice(Some(a), Some(b), None), n) == Ok(seq(b - a, i => a + i))
  {
    RangeAscending(a, b);
  }

  /** `[a:]` with `-n <= a < 0` selects the last `-a` positions. */
  lemma TailSlice(a: int, n: nat)
    requires 0 <= a + n && a < 0
    ensures SliceIndices(Slice(Some(a), None, None), n) == Ok(seq(-a, i => n + a + i))
  {
    RangeAscending(n + a, n);
  }

  /** `[a:b]` with a stop beyond the end is cut at the end: it selects
      `a .. n-1`. */
  lemma OverlongSlice(a: nat, b: int, n: nat)
    requires a <= n < b
    ensures SliceIndices(Slice(Some(a), Some(b), None), n) == Ok(seq(n - a, i => a + i))
  {
    RangeAscending(a, n);
  }

  /** `[a::-1]` with a start beyond the end begins at the last position. */
  lemma OverlongReversedSlice(a: int, n: nat)
    requires n <= a
    ensures SliceIndices(Slice(Some(a), None, Some(-1)), n) == Ok(seq(n, i => n - 1 - i))
  {
    RangeDescending(n - 1, -1);
  }
}

=== FILE: values.dfy ===
/** The values a record field can hold, the errors the record operations
    raise, and Python's `<` on two single field values. */
module Values {

  /** The field values this model covers: Python's None (also the value of a
      field that has neither an argument nor a default), integers and str. */
  datatype Value = NoneValue | IntValue(i: int) | StrValue(s: string)

  datatype Option<T> = None | Some(value: T)

  /** One constructor per exception the record operations raise. */
  datatype Error =
    // TypeError: more positional plus keyword arguments than fields
    | TooManyArguments(classname: string, accepted: nat, got: nat)
    // TypeError: a keyword argument of the constructor names no field
    | UnexpectedKeyword(classname: string, name: string)
    // AttributeError: an attribute that is not a field (read, write, astuple)
    | NoAttribute(classname: string, name: string)
    // IndexError: a position outside -n .. n-1
    | IndexOutOfRange
    // ValueError: a slice whose step is 0
    | ZeroSliceStep
    // whatever a validator raises (usually ValueError), passed on unchanged
    | Invalid(message: string)
    // TypeError: positional access to a record of the name-only flavour
    | NotSubscriptable(classname: string)
    | NoItemAssignment(classname: string)
    | NoItemDeletion(classname: string)
    | NotIterable(classname: string)
    | NoLength(classname: string)
    // AttributeError raised by the deletion hooks ("__delattr__", "__delitem__")
    | DeletionRefused(hook: string)
    // TypeError: `<` between values of unrelated types (None, int, str)
    | Unorderable

  datatype Result<T> = Ok(value: T) | Err(error: Error)

  /** Python's `<` on str: code point by code point, a proper prefix first. */
  function StrLess(a: string, b: string): (r: bool)
    ensures |a| < |b| && a == b[..|a|] ==> r
    ensures |b| <= |a| && b == a[..|b|] ==> !r
    decreases |a|
  {
    if |a| == 0 then |b| > 0
    else if |b| == 0 then false
    else if a[0] != b[0] then a[0] < b[0]
    else StrLess(a[1..], b[1..])
  }

  /** The first position where two strings differ decides: `a < b` exactly
      when the code point of `a` there is the smaller one. */
  lemma {:induction false} StrLessFirstDifference(a: string, b: string, k: nat)
    requires k < |a| && k < |b| && a[..k] == b[..k] && a[k] != b[k]
    ensures StrLess(a, b) <==> a[k] < b[k]
    decreases k
  {
    if k > 0 {
      assert a[0] == a[..k][0] == b[..k][0] == b[0];
      assert a[1..][..k - 1] == a[..k][1..] == b[..k][1..] == b[1..][..k - 1];
      StrLessFirstDifference(a[1..], b[1..], k - 1);
    }
  }

  lemma {:induction false} StrLessIrreflexive(a: string)
    ensures !StrLess(a, a)
    decreases |a|
  {
    if |a| > 0 {
      StrLessIrreflexive(a[1..]);
    }
  }

  lemma {:induction false} StrLessAsymmetric(a: string, b: string)
    ensures !(StrLess(a, b) && StrLess(b, a))
    decreases |a|
  {
    if |a| > 0 && |b| > 0 && a[0] == b[0] {
      StrLessAsymmetric(a[1..], b[1..]);
    }
  }

  lemma {:induction false} StrLessTransitive(a: string, b: string, c: string)
    requires StrLess(a, b) && StrLess(b, c)
    ensures StrLess(a, c)
    decreases |a|
  {
    if |a| > 0 && a[0] == b[0] && b[0] == c[0] {
      StrLessTransitive(a[1..], b[1..], c[1..]);
    }
  }

  /** Two different strings are ordered one way or the other. */
  lemma {:induction false} StrLessTotal(a: string, b: string)
    requires a != b
    ensures StrLess(a, b) || StrLess(b, a)
    decreases |a|
  {
    if |a| > 0 && |b| > 0 && a[0] == b[0] {
      assert a == [a[0]] + a[1..] && b == [b[0]] + b[1..];
      StrLessTotal(a[1..], b[1..]);
    }
  }

  /** Values of the same kind that Python can order with `<`. */
  predicate Orderable(a: Value, b: Value)
  {
    (a.IntValue? && b.IntValue?) || (a.StrValue? && b.StrValue?)
  }

  /** Python's `a < b` on two field values: numbers by size, strings
      lexicographically, anything else raises TypeError. */
  function ValueLess(a: Value, b: Value): (r: Result<bool>)
    ensures r.Ok? <==> Orderable(a, b)
    ensures r.Err? ==> r.error == Unorderable
    ensures a.IntValue? && b.IntValue? ==> r == Ok(a.i < b.i)
    ensures a.StrValue? && b.StrValue? ==> r == Ok(StrLess(a.s, b.s))
  {
    match (a, b)
    case (IntValue(x), IntValue(y)) => Ok(x < y)
    case (StrValue(x), StrValue(y)) => Ok(StrLess(x, y))
    case _ => Err(Unorderable)
  }

  lemma ValueLessIrreflexive(a: Value)
    ensures ValueLess(a, a) != Ok(true)
  {
    if a.StrValue? {
      StrLessIrreflexive(a.s);
    }
  }

  lemma ValueLessAsymmetric(a: Value, b: Value)
    ensures !(ValueLess(a, b) == Ok(true) && ValueLess(b, a) == Ok(true))
  {
    if a.StrValue? && b.StrValue? {
      StrLessAsymmetric(a.s, b.s);
    }
  }

  lemma ValueLessTransitive(a: Value, b: Value, c: Value)
    requires ValueLess(a, b) == Ok(true) && ValueLess(b, c) == Ok(true)
    ensures ValueLess(a, c) == Ok(true)
  {
    if a.StrValue? {
      StrLessTransitive(a.s, b.s, c.s);
    }
  }

  /** Two different values that can be ordered are ordered one way or the other. */
  lemma ValueLessTotal(a: Value, b: Value)
    requires Orderable(a, b) && a != b
    ensures ValueLess(a, b) == Ok(true) || ValueLess(b, a) == Ok(true)
  {
    if a.StrValue? {
      StrLessTotal(a.s, b.s);
    }
  }
}

=== FILE: writes.dfy ===
/** The write protocol shared by both flavours: every write runs through the
    validator and stores what it returns; a failing write stores nothing.
    Construction and slice assignment are sequences of such writes. */
module Writes {
  import opened Values
  import opened Schemas

  /** `setattr(record, name, value)`: the validator sees the value first
      (even for a name that is no field); a name that is not a field is then
      refused; otherwise the validator's result replaces that field alone. */
  function Assign(schema: Schema, values: seq<Value>, name: string, value: Value): (r: Result<seq<Value>>)
    requires WellFormed(schema) && |values| == |schema.fields|
    ensures r.Ok? <==> Validate(schema, name, value).Ok? && name in schema.fields
    ensures Validate(schema, name, value).Err? ==> r == Err(Validate(schema, name, value).error)
    ensures Validate(schema, name, value).Ok? && name !in schema.fields ==>
              r == Err(NoAttribute(schema.classname, name))
    ensures r.Ok? ==> |r.value| == |values|
    ensures r.Ok? ==> forall j :: 0 <= j < |values| ==>
              r.value[j] == if schema.fields[j] == name then Validate(schema, name, value).value else values[j]
  {
    match Validate(schema, name, value)
    case Err(e) => Err(e)
    case Ok(v) =>
      if name in schema.fields then Ok(values[IndexOf(schema.fields, name) := v])
      else Err(NoAttribute(schema.classname, name))
  }

  /** Writing a field's own value back, through a validator that returns
      that value unchanged, leaves the record as it was. */
  lemma AssignOwnValue(schema: Schema, values: seq<Value>, k: nat)
    requires WellFormed(schema) && |values| == |schema.fields| && k < |values|
    requires Validate(schema, schema.fields[k], values[k]) == Ok(values[k])
    ensures Assign(schema, values, schema.fields[k], values[k]) == Ok(values)
  {
    var r := Assign(schema, values, schema.fields[k], values[k]);
    forall j | 0 <= j < |values| ensures r.value[j] == values[j] {
      if schema.fields[j] == schema.fields[k] {
        assert j == k;
      }
    }
    assert r.value == values;
  }

  /** A write that succeeded changes nothing when repeated. */
  lemma AssignTwice(schema: Schema, values: seq<Value>, name: string, value: Value)
    requires WellFormed(schema) && |values| == |schema.fields|
    requires Assign(schema, values, name, value).Ok?
    ensures Assign(schema, Assign(schema, values, name, value).value, name, value)
            == Assign(schema, values, name, value)
  {
    var once := Assign(schema, values, name, value).value;
    var twice := Assign(schema, once, name, value).value;
    forall j | 0 <= j < |values| ensures twice[j] == once[j] {
    }
    assert twice == once;
  }

  /** A write `(name, value)` in a sequence of writes. */
  type Write = (string, Value)

  /** The error one write raises, whatever the record holds at the time.
      With `checkNames` (the constructor's keyword pass) a name that is no
      field is refused before the validator is called. */
  function WriteError(schema: Schema, w: Write, checkNames: bool): Option<Error>
  {
    if checkNames && w.0 !in schema.fields then Some(UnexpectedKeyword(schema.classname, w.0))
    else match Validate(schema, w.0, w.1)
      case Err(e) => Some(e)
      case Ok(_) => if w.0 in schema.fields then None else Some(NoAttribute(schema.classname, w.0))
  }

  /** The state after some writes, and the error that stopped them, if any. */
  datatype Progress = Progress(values: seq<Value>, failure: Option<Error>)

  function Step(schema: Schema, values: seq<Value>, w: Write, checkNames: bool): (p: Progress)
    requires WellFormed(schema) && |values| == |schema.fields|
    ensures |p.values| == |values|
    ensures p.failure == WriteError(schema, w, checkNames)
    ensures p.failure.Some? ==> p.values == values
    ensures p.failure.None? ==> Ok(p.values) == Assign(schema, values, w.0, w.1)
  {
    if checkNames && w.0 !in schema.fields then Progress(values, Some(UnexpectedKeyword(schema.classname, w.0)))
    else match Assign(schema, values, w.0, w.1)
      case Ok(v) => Progress(v, None)
      case Err(e) => Progress(values, Some(e))
  }

  /** The writes done one after another; the first one that fails stops the
      sequence, and the writes before it stay done. */
  function Apply(schema: Schema, values: seq<Value>, writes: seq<Write>, checkNames: bool): (p: Progress)
    requires WellFormed(schema) && |values| == |schema.fields|
    ensures |p.values| == |values|
    ensures p.failure.None? ==> forall k :: 0 <= k < |writes| ==> WriteError(schema, writes[k], checkNames).None?
    decreases |writes|
  {
    if writes == [] then Progress(values, None)
    else
      var before := Apply(schema, values, writes[..|writes| - 1], checkNames);
      if before.failure.Some? then before
      else Step(schema, before.values, writes[|writes| - 1], checkNames)
  }

  /** A field that no write names keeps its value, whether or not the
      sequence stopped early. */
  lemma {:induction false} ApplyUntouched(schema: Schema, values: seq<Value>, writes: seq<Write>,
                                          checkNames: bool, p: nat)
    requires WellFormed(schema) && |values| == |schema.fields| && p < |values|
    requires forall k :: 0 <= k < |writes| ==> writes[k].0 != schema.fields[p]
    ensures Apply(schema, values, writes, checkNames).values[p] == values[p]
    decreases |writes|
  {
    if writes != [] {
      ApplyUntouched(schema, values, writes[..|writes| - 1], checkNames, p);
    }
  }

  /** When the sequence completes, a field holds the validator's verdict on
      the value of the last write that names it. */
  lemma {:induction false} ApplyLastWrite(schema: Schema, values: seq<Value>, writes: seq<Write>,
                                          checkNames: bool, k: nat, p: nat)
    requires WellFormed(schema) && |values| == |schema.fields| && p < |values|
    requires Apply(schema, values, writes, checkNames).failure.None?
    requires k < |writes| && writes[k].0 == schema.fields[p]
    requires forall j :: k < j < |writes| ==> writes[j].0 != schema.fields[p]
    ensures Validate(schema, writes[k].0, writes[k].1).Ok?
    ensures Apply(schema, values, writes, checkNames).values[p] == Validate(schema, writes[k].0, writes[k].1).value
    decreases |writes|
  {
    var n := |writes|;
    var before := Apply(schema, values, writes[..n - 1], checkNames);
    if k < n - 1 {
      ApplyLastWrite(schema, values, writes[..n - 1], checkNames, k, p);
    }
  }

  /** The sequence completes exactly when no write in it raises. */
  lemma {:induction false} ApplyCompletes(schema: Schema, values: seq<Value>, writes: seq<Write>, checkNames: bool)
    requires WellFormed(schema) && |values| == |schema.fields|
    ensures Apply(schema, values, writes, checkNames).failure.None? <==>
            forall k :: 0 <= k < |writes| ==> WriteError(schema, writes[k], checkNames).None?
    decreases |writes|
  {
    if writes != [] {
      var n := |writes|;
      ApplyCompletes(schema, values, writes[..n - 1], checkNames);
      assert forall k :: 0 <= k < n - 1 ==> writes[..n - 1][k] == writes[k];
    }
  }

  /** The first write that raises stops the sequence with its error; the
      record then holds what the writes before it made. */
  lemma {:induction false} ApplyStopsAtFirstError(schema: Schema, values: seq<Value>, writes: seq<Write>,
                                                  checkNames: bool, k: nat)
    requires WellFormed(schema) && |values| == |schema.fields|
    requires k < |writes| && WriteError(schema, writes[k], checkNames).Some?
    requires forall j :: 0 <= j < k ==> WriteError(schema, writes[j], checkNames).None?
    ensures Apply(schema, values, writes, checkNames) ==
            Progress(Apply(schema, values, writes[..k], checkNames).values, WriteError(schema, writes[k], checkNames))
    decreases |writes|
  {
    var n := |writes|;
    if k == n - 1 {
      ApplyCompletes(schema, values, writes[..k], checkNames);
    } else {
      ApplyStopsAtFirstError(schema, values, writes[..n - 1], checkNames, k);
      assert writes[..n - 1][..k] == writes[..k];
    }
  }

  /** Once a prefix of the writes has failed, the later writes change nothing. */
  lemma {:induction false} ApplyKeepsFailure(schema: Schema, values: seq<Value>, writes: seq<Write>,
                                             checkNames: bool, k: nat)
    requires WellFormed(schema) && |values| == |schema.fields|
    requires k <= |writes| && Apply(schema, values, writes[..k], checkNames).failure.Some?
    ensures Apply(schema, values, writes, checkNames) == Apply(schema, values, writes[..k], checkNames)
    decreases |writes|
  {
    var n := |writes|;
    if k == n {
      assert writes[..k] == writes;
    } else {
      assert writes[..n - 1][..k] == writes[..k];
      ApplyKeepsFailure(schema, values, writes[..n - 1], checkNames, k);
    }
  }

  /** The writes up to and including write k: those before it, then it,
      unless those before it have already failed. */
  lemma ApplyPrefixStep(schema: Schema, values: seq<Value>, writes: seq<Write>, checkNames: bool, k: nat)
    requires WellFormed(schema) && |values| == |schema.fields| && k < |writes|
    ensures var before := Apply(schema, values, writes[..k], checkNames);
            Apply(schema, values, writes[..k + 1], checkNames)
            == if before.failure.Some? then before else Step(schema, before.values, writes[k], checkNames)
  {
    assert writes[..k + 1][..k] == writes[..k];
  }

  /** The slots of a record before its constructor has written them. */
  function Unset(n: nat): seq<Value>
  {
    seq(n, _ => NoneValue)
  }

  /** The constructor's first pass: every field, in declared order, gets its
      positional argument, else its default, else None. */
  function PositionalWrites(schema: Schema, args: seq<Value>): (w: seq<Write>)
    ensures |w| == |schema.fields|
    ensures forall i :: 0 <= i < |w| ==> w[i] == (schema.fields[i], Initial(schema, args, i))
  {
    seq(|schema.fields|, i requires 0 <= i < |schema.fields| => (schema.fields[i], Initial(schema, args, i)))
  }

  /** The TypeError for too many arguments, counting positional and keyword
      arguments alike. */
  function ArityError(schema: Schema, args: seq<Value>, kwargs: seq<Write>): (e: Error)
    ensures e.TooManyArguments? && e.classname == schema.classname
    ensures |args| + |kwargs| > |schema.fields| ==> e.got > e.accepted
  {
    TooManyArguments(schema.classname, |schema.fields|, |args| + |kwargs|)
  }

  /** The same TypeError as the constructor words it: it reports only the
      positional count. */
  function ArityErrorAsWritten(schema: Schema, args: seq<Value>, kwargs: seq<Write>): (e: Error)
    ensures e.TooManyArguments? && e.classname == schema.classname && e.got == |args|
  {
    TooManyArguments(schema.classname, |schema.fields|, |args|)
  }

  /** A refused call whose message claims it passed no more arguments than
      the class accepts: `Rgb(1, 2, blue=3, red=4)` reports "got 2" of 3. */
  lemma ArityMessageUndercounts()
    ensures var rgb := Schema("Rgb", ["red", "green", "blue"], None, None, true);
            var args, kwargs := [IntValue(1), IntValue(2)], [("blue", IntValue(3)), ("red", IntValue(4))];
            |args| + |kwargs| > |rgb.fields| &&
            ArityErrorAsWritten(rgb, args, kwargs).got <= ArityErrorAsWritten(rgb, args, kwargs).accepted
  {
  }

  /** What the constructor `Class(*args, **kwargs)` makes of its arguments:
      the field values of the new record, or the error it raises. The
      argument count is checked before any write; then come the positional
      pass and the keyword pass, in the caller's keyword order. */
  function Build(schema: Schema, args: seq<Value>, kwargs: seq<Write>): (r: Result<seq<Value>>)
    requires WellFormed(schema)
    ensures |args| + |kwargs| > |schema.fields| ==> r == Err(ArityError(schema, args, kwargs))
    ensures r.Ok? ==> |r.value| == |schema.fields|
  {
    var n := |schema.fields|;
    if |args| + |kwargs| > n then Err(ArityError(schema, args, kwargs))
    else
      var first := Apply(schema, Unset(n), PositionalWrites(schema, args), false);
      if first.failure.Some? then Err(first.failure.value)
      else
        var second := Apply(schema, first.values, kwargs, true);
        if second.failure.Some? then Err(second.failure.value) else Ok(second.values)
  }

  /** A field that no keyword names holds the validator's verdict on its
      positional argument, else its default, else None. */
  lemma BuildDefaulting(schema: Schema, args: seq<Value>, kwargs: seq<Write>, i: nat)
    requires WellFormed(schema) && i < |schema.fields|
    requires Build(schema, args, kwargs).Ok?
    requires forall k :: 0 <= k < |kwargs| ==> kwargs[k].0 != schema.fields[i]
    ensures Validate(schema, schema.fields[i], Initial(schema, args, i)).Ok?
    ensures Build(schema, args, kwargs).value[i] == Validate(schema, schema.fields[i], Initial(schema, args, i)).value
  {
    var n := |schema.fields|;
    var writes := PositionalWrites(schema, args);
    var first := Apply(schema, Unset(n), writes, false);
    forall j | i < j < n ensures writes[j].0 != schema.fields[i] {
    }
    ApplyLastWrite(schema, Unset(n), writes, false, i, i);
    ApplyUntouched(schema, first.values, kwargs, true, i);
  }

  /** A keyword argument overrides the first pass: a field holds the
      validator's verdict on the last keyword value that names it. */
  lemma BuildOverride(schema: Schema, args: seq<Value>, kwargs: seq<Write>, k: nat, i: nat)
    requires WellFormed(schema) && i < |schema.fields|
    requires Build(schema, args, kwargs).Ok?
    requires k < |kwargs| && kwargs[k].0 == schema.fields[i]
    requires forall j :: k < j < |kwargs| ==> kwargs[j].0 != schema.fields[i]
    ensures Validate(schema, kwargs[k].0, kwargs[k].1).Ok?
    ensures Build(schema, args, kwargs).value[i] == Validate(schema, kwargs[k].0, kwargs[k].1).value
  {
    var n := |schema.fields|;
    var first := Apply(schema, Unset(n), PositionalWrites(schema, args), false);
    ApplyLastWrite(schema, first.values, kwargs, true, k, i);
  }

  /** Construction succeeds exactly when the argument count fits, the
      validator accepts every first-pass value, and every keyword names a
      field whose value the validator accepts. */
  lemma BuildSucceeds(schema: Schema, args: seq<Value>, kwargs: seq<Write>)
    requires WellFormed(schema)
    ensures Build(schema, args, kwargs).Ok? <==>
            |args| + |kwargs| <= |schema.fields|
            && (forall i :: 0 <= i < |schema.fields| ==> Validate(schema, schema.fields[i], Initial(schema, args, i)).Ok?)
            && (forall k :: 0 <= k < |kwargs| ==> kwargs[k].0 in schema.fields && Validate(schema, kwargs[k].0, kwargs[k].1).Ok?)
  {
    var n := |schema.fields|;
    var writes := PositionalWrites(schema, args);
    ApplyCompletes(schema, Unset(n), writes, false);
    assert forall i :: 0 <= i < n ==> schema.fields[i] in schema.fields;
    var first := Apply(schema, Unset(n), writes, false);
    ApplyCompletes(schema, first.values, kwargs, true);
  }

  /** Once the first pass has completed, the first keyword that names no
      field or that the validator refuses makes construction fail with its
      error; the keywords after it are never looked at. */
  lemma BuildKeywordError(schema: Schema, args: seq<Value>, kwargs: seq<Write>, k: nat)
    requires WellFormed(schema) && |args| + |kwargs| <= |schema.fields|
    requires forall i :: 0 <= i < |schema.fields| ==> Validate(schema, schema.fields[i], Initial(schema, args, i)).Ok?
    requires k < |kwargs| && WriteError(schema, kwargs[k], true).Some?
    requires forall j :: 0 <= j < k ==> kwargs[j].0 in schema.fields && Validate(schema, kwargs[j].0, kwargs[j].1).Ok?
    ensures Build(schema, args, kwargs) == Err(WriteError(schema, kwargs[k], true).value)
  {
    var n := |schema.fields|;
    var writes := PositionalWrites(schema, args);
    assert forall i :: 0 <= i < n ==> schema.fields[i] in schema.fields;
    ApplyCompletes(schema, Unset(n), writes, false);
    var first := Apply(schema, Unset(n), writes, false);
    ApplyStopsAtFirstError(schema, first.values, kwargs, true, k);
  }

  /** A keyword that names no field makes construction fail with
      UnexpectedKeyword, before the validator sees its value. */
  lemma BuildUnknownKeyword(schema: Schema, args: seq<Value>, kwargs: seq<Write>, k: nat)
    requires WellFormed(schema) && |args| + |kwargs| <= |schema.fields|
    requires forall i :: 0 <= i < |schema.fields| ==> Validate(schema, schema.fields[i], Initial(schema, args, i)).Ok?
    requires k < |kwargs| && kwargs[k].0 !in schema.fields
    requires forall j :: 0 <= j < k ==> kwargs[j].0 in schema.fields && Validate(schema, kwargs[j].0, kwargs[j].1).Ok?
    ensures Build(schema, args, kwargs) == Err(UnexpectedKeyword(schema.classname, kwargs[k].0))
  {
    BuildKeywordError(schema, args, kwargs, k);
  }

  /** The first pass comes before every keyword: if the validator refuses
      the first-pass value of field i (and of no earlier field), construction
      fails with that error whatever the keywords are. */
  lemma BuildPositionalErrorFirst(schema: Schema, args: seq<Value>, kwargs: seq<Write>, i: nat)
    requires WellFormed(schema) && |args| + |kwargs| <= |schema.fields|
    requires i < |schema.fields| && Validate(schema, schema.fields[i], Initial(schema, args, i)).Err?
    requires forall j :: 0 <= j < i ==> Validate(schema, schema.fields[j], Initial(schema, args, j)).Ok?
    ensures Build(schema, args, kwargs) == Err(Validate(schema, schema.fields[i], Initial(schema, args, i)).error)
  {
    var n := |schema.fields|;
    var writes := PositionalWrites(schema, args);
    assert forall j :: 0 <= j < n ==> schema.fields[j] in schema.fields;
    ApplyStopsAtFirstError(schema, Unset(n), writes, false, i);
  }

  /** Rebuilding a record from its own values, `Class(*record)`, gives the
      same values, provided the validator accepts each stored value as it is. */
  lemma BuildRoundTrip(schema: Schema, values: seq<Value>)
    requires WellFormed(schema) && |values| == |schema.fields|
    requires forall i :: 0 <= i < |values| ==> Validate(schema, schema.fields[i], values[i]) == Ok(values[i])
    ensures Build(schema, values, []) == Ok(values)
  {
    assert forall i :: 0 <= i < |values| ==> Initial(schema, values, i) == values[i];
    BuildSucceeds(schema, values, []);
    var r := Build(schema, values, []).value;
    forall i | 0 <= i < |values| ensures r[i] == values[i] {
      BuildDefaulting(schema, values, [], i);
    }
    assert r == values;
  }

  /** Slice assignment's writes: `zip(positions, values)`, which stops at
      the shorter of the two. */
  function SliceWrites(schema: Schema, positions: seq<int>, vs: seq<Value>): (w: seq<Write>)
    requires forall k :: 0 <= k < |positions| ==> 0 <= positions[k] < |schema.fields|
    ensures |w| == if |positions| < |vs| then |positions| else |vs|
    ensures forall k :: 0 <= k < |w| ==> w[k] == (schema.fields[positions[k]], vs[k])
  {
    var m := if |positions| < |vs| then |positions| else |vs|;
    seq(m, k requires 0 <= k < m => (schema.fields[positions[k]], vs[k]))
  }

  /** After a completed slice assignment over distinct positions, the k-th
      selected field holds the validator's verdict on the k-th value, for
      every k below the shorter length. */
  lemma SliceAssignWrites(schema: Schema, values: seq<Value>, positions: seq<int>, vs: seq<Value>, k: nat)
    requires WellFormed(schema) && |values| == |schema.fields|
    requires forall j :: 0 <= j < |positions| ==> 0 <= positions[j] < |values|
    requires forall i, j :: 0 <= i < j < |positions| ==> positions[i] != positions[j]
    requires Apply(schema, values, SliceWrites(schema, positions, vs), false).failure.None?
    requires k < |positions| && k < |vs|
    ensures Validate(schema, schema.fields[positions[k]], vs[k]).Ok?
    ensures Apply(schema, values, SliceWrites(schema, positions, vs), false).values[positions[k]]
            == Validate(schema, schema.fields[positions[k]], vs[k]).value
  {
    var w := SliceWrites(schema, positions, vs);
    var p := positions[k];
    forall j | k < j < |w| ensures w[j].0 != schema.fields[p] {
      assert positions[j] != p;
    }
    ApplyLastWrite(schema, values, w, false, k, p);
  }

  /** Slice assignment leaves every field it does not select unchanged (even
      when a write fails part way). */
  lemma SliceAssignFrame(schema: Schema, values: seq<Value>, positions: seq<int>, vs: seq<Value>, p: nat)
    requires WellFormed(schema) && |values| == |schema.fields| && p < |values|
    requires forall j :: 0 <= j < |positions| ==> 0 <= positions[j] < |values|
    requires forall j :: 0 <= j < |positions| && j < |vs| ==> positions[j] != p
    ensures Apply(schema, values, SliceWrites(schema, positions, vs), false).values[p] == values[p]
  {
    var w := SliceWrites(schema, positions, vs);
    forall j | 0 <= j < |w| ensures w[j].0 != schema.fields[p] {
    }
    ApplyUntouched(schema, values, w, false, p);
  }
}
